=== FILE: README.md ===
# Alien Invasion: the game loop as pure state transitions

This project models the simulation rules of the pygame arcade shooter
*Alien Invasion*. The player's ship moves along the bottom of the screen.
It fires bullets at a grid of aliens that sweeps sideways, bounces off the
screen edges, and drops a step at each bounce. Clearing the fleet raises
the level and speeds the game up. An alien touching the ship or reaching
the bottom costs a ship. Losing the last ship ends the game until the
player clicks Play again.

The state the main loop owns is one immutable datatype,
`AlienInvasion.Game`:

- the settings record;
- score, level and ships left;
- the ship (float x, integer rectangle, two movement flags);
- the bullets and the fleet, as sequences;
- the alien size;
- the `game_active` flag.

Every handler of the loop is a pure function from the state before to the
state after:

- keys and the Play button;
- firing;
- bullet expiry and collisions;
- the fleet bounce;
- the life-loss and game-over rules;
- level scaling.

Modules follow the source files:

- `GameSettings` (settings.dfy) models `settings.py`.
- `ShipMotion` (ship.dfy) models `ship.py`.
- `Fleet` (fleet.dfy) covers the fleet builder, the edge bounce and the bottom check in `alien_invasion.py`.
- `Bullets` (bullets.dfy) covers firing, expiry and pygame's `groupcollide` as the game calls it.
- `AlienInvasion` (alien_invasion.dfy) holds the game state, the event handlers, `_update_*` and one frame of `run_game`.
- `Geometry` and `Sequences` are small helpers: `Rect`, truncation toward zero, and an order-keeping filter.

The classes whose code is not part of this model enter as functions
collected in `AlienInvasion.Physics`. These are `Alien.update`,
`Alien.check_edges`, the `Bullet` constructor, `Bullet.update`, and
pygame's rectangle overlap tests. The Play button hit test becomes a
boolean carried by the mouse event. The event queue becomes a sequence of
`Event` values, and `sys.exit` becomes the `Exited` outcome.

Two consequences of the code are worth stating plainly.

- With `ship_limit = 3`, the hits leave 2, 1 and 0 ships with the game
  still running. In `_ship_hit` a hit with ships in reserve only
  decrements the counter. Only the fourth hit sets `game_active` to false
  (`ThreeShips`).
- pygame's `groupcollide` with both kill flags set takes the bullets in
  order. Each bullet removes every alien still in the group that it
  overlaps. So an alien is removed and scored once, even when two bullets
  overlap it (`GroupCollide`, `CollideKills`).

## Model

| member | source | states |
|---|---|---|
| Geometry.Trunc | ship.py:42-43 | Storing the float x into the rectangle keeps the whole part toward zero: the result lies within one unit of x, on x's side of zero. |
| Sequences.Keep | alien_invasion.py:124-127 | The filter keeps only elements meeting the test and never adds any. If every element passes, the sequence is returned unchanged. If one fails, the result is strictly shorter. The order of the survivors is KeepConcat. |
| Sequences.KeepCount | alien_invasion.py:124-127 | Every copy of each passing element survives, and no copy of a failing one. |
| Sequences.KeepContents | alien_invasion.py:124-127 | An element is in the result iff it was present and passes. |
| Sequences.KeepOne | alien_invasion.py:124-127 | A one-element sequence is kept iff its element passes. |
| Sequences.KeepConcat | alien_invasion.py:124-127 | Filtering two sequences joined end to end gives the two filtered sequences joined end to end. With KeepOne this says the survivors keep their original order. |
| GameSettings.New | settings.py:4-28 | Defaults: screen 1200x800, ship_limit 3, bullets 3x15 with 3 allowed, fleet_drop_speed 10, speedup_scale 1.1, score_scale 1.5. The dynamic fields already hold their reset values, and the record is valid. |
| GameSettings.InitializeDynamicSettings | settings.py:30-40 | Sets ship 1.5, bullet 2.5, alien 1.0, fleet_direction 1, alien_points 50. No static field changes. |
| GameSettings.InitializeIdempotent | settings.py:30-40 | Resetting twice equals resetting once. |
| GameSettings.IncreaseSpeed | settings.py:42-48 | Each of the three speeds becomes the old speed times speedup_scale, and alien_points becomes int(alien_points * score_scale). Leaves the statics and fleet_direction untouched. On valid settings, each of the three speeds strictly grows, alien_points does not fall, and validity is kept. At scale 1.5 the points become floor(3p/2). |
| GameSettings.Scale | settings.py:44-46 | The scaled speed is the speed times the factor, so a positive speed times a factor above one strictly grows. |
| GameSettings.ScalePoints | settings.py:48 | `int(points * score_scale)` is never below the points when the scale is at least 1. At 1.5 it equals floor(3p/2). |
| GameSettings.ThreeHalves | settings.py:48 | Truncating p times 1.5 gives floor(3p/2) for p >= 0. |
| GameSettings.PointProgression | settings.py:40-48 | Point values across the first levels are 50, 75, 112. |
| GameSettings.InitializeAfterIncreases | settings.py:30-48 | A reset after any number of speed-ups gives what a reset of the original settings gives. |
| GameSettings.DefaultsRestored | settings.py:28-48 | From the defaults, a reset after n speed-ups gives back exactly the defaults. |
| GameSettings.ResetToDefaults | settings.py:30-40 | Any settings with the default statics reset to exactly the defaults. |
| GameSettings.IncreasesPreserve | settings.py:42-48 | n speed-ups keep validity, the statics and the direction, and never lower the points. When n > 0 the ship speed is strictly higher. |
| ShipMotion.AtMidbottom | ship.py:19-20 | The placed rectangle keeps its size. Its centre x and bottom equal the screen's. |
| ShipMotion.NewShip | ship.py:8-27 | A new ship sits at the bottom centre with both flags false. Its float x equals its rectangle's x, and that rectangle x is what truncating the float gives back. |
| ShipMotion.CenterShip | ship.py:29-32 | Moves the ship to the bottom centre. Size and both flags are kept. The float x equals the rectangle's x, and truncating it gives the rectangle's x back. |
| ShipMotion.CenterForgetsPosition | ship.py:29-32 | Centring does not depend on the prior position. A centred ship is a new ship apart from its flags. |
| ShipMotion.Update | ship.py:34-43 | Right only, inside the right edge: x grows by exactly the speed. Left only, right of 0: x shrinks by exactly the speed. Both flags, both bounds met: x is unchanged. Both flags with one side blocked: x moves by the speed toward the open side. In every case x changes by +speed for an active right move and -speed for an active left move, each gated by the rectangle as it was before the tick. The rectangle takes the truncated x, and the flags are kept. |
| ShipMotion.UpdateOrderIndependent | ship.py:37-40 | Evaluating the left move first gives the same ship, so the flags act independently. |
| ShipMotion.UpdateStaysNearScreen | ship.py:37-43 | A move is made only from inside the screen, so the ship never gets more than one step past either edge. |
| ShipMotion.CenteredIsNearScreen | ship.py:29-32 | A centred ship narrower than the screen is within that band, and a faster speed only widens the band. |
| Fleet.PlaceRow | alien_invasion.py:203-205 | The inner loop appends exactly one reference row to what was already placed. |
| Fleet.RowsRowMajor | alien_invasion.py:201-209 | The rows are emitted left to right within a row and top to bottom across rows. |
| Fleet.CreateFleet | alien_invasion.py:194-217 | The nested loops produce exactly the reference layout. An alien is placed iff its corner is a grid cell. |
| Fleet.Build | alien_invasion.py:194-209 | The fleet every new game, lost life and cleared level starts with holds exactly the grid cells. |
| Fleet.BuildMembership | alien_invasion.py:201-209 | A cell is in the fleet iff x = aw + 2aw*i < width - 2aw and y = ah + 2ah*j < height - 3ah for whole i, j >= 0. |
| Fleet.BuildNonEmpty | alien_invasion.py:201-204 | The fleet is non-empty iff width > 3aw and height > 4ah. |
| Fleet.BuildLayout | alien_invasion.py:196-209 | The fleet is ordered row by row, left to right, with no repeated cell. Any two aliens are at least one alien width or height apart. Every alien lies within the screen margins. |
| Fleet.GridApart | alien_invasion.py:196-209 | Two different grid cells never overlap: they are one alien width or height apart. |
| Fleet.RowMembership | alien_invasion.py:203-205 | A row holds exactly the cells at its height stepped by 2aw from its start and left of the limit. |
| Fleet.RowsMembership | alien_invasion.py:202-209 | The rows from height y hold exactly the grid cells at heights stepped by 2ah from y. |
| Fleet.Drop | alien_invasion.py:226-229 | Every alien's y grows by the drop and its x is kept. The count is kept. |
| Fleet.DropKeepsLayout | alien_invasion.py:226-229 | A drop keeps the row order and the spacing, and two drops add up. |
| Fleet.CheckFleetEdges | alien_invasion.py:219-230 | If any alien is at an edge, the fleet drops once and the direction is negated once. Otherwise nothing changes. |
| Fleet.ScanFleetEdges | alien_invasion.py:219-224 | The scan with its break changes direction at most once, and exactly once iff some alien is at an edge. Its result equals CheckFleetEdges. |
| Fleet.BuildNotAtBottom | alien_invasion.py:186-192 | No alien of a freshly built fleet touches the bottom of the screen. |
| Bullets.Fire | alien_invasion.py:113-117 | Exactly one bullet is added iff fewer than bullets_allowed are alive. Otherwise the group is unchanged. Firing never pushes the count past the cap. |
| Bullets.FireAllCapped | alien_invasion.py:113-117 | Any number of fire requests leaves min(count + requests, cap) bullets, with the old ones first. |
| Bullets.Expire | alien_invasion.py:124-127 | No survivor has bottom <= 0. Every copy of a bullet with bottom > 0 is kept, every copy of one with bottom <= 0 is removed, and nothing new appears. The order of the survivors is ExpireConcat. |
| Bullets.ExpireOne | alien_invasion.py:124-127 | A single bullet is kept iff its bottom is above 0. |
| Bullets.ExpireConcat | alien_invasion.py:124-127 | Expiring two bullet lists joined end to end gives the two expired lists joined end to end. With ExpireOne this says the live bullets keep their order. |
| Bullets.Missed | alien_invasion.py:134-135 | The same order-keeping filter as expiry, with "missed by this bullet" as the test. A bullet's sweep keeps every copy of each alien it does not overlap and no copy of one it overlaps. If it overlaps none, the group is unchanged. |
| Bullets.MissedOne | alien_invasion.py:134-135 | A one-alien group loses its alien iff the bullet overlaps it. |
| Bullets.MissedConcat | alien_invasion.py:134-135 | Sweeping two groups joined end to end gives the two sweeps joined end to end. With MissedOne this says the survivors keep their original order. |
| Bullets.MissedAll | alien_invasion.py:134-135 | A bullet that overlaps none of the aliens leaves the group exactly as it was. |
| Bullets.GroupCollide | alien_invasion.py:134-135 | Bullets that hit are removed, and each hit entry is positive. Surviving bullets plus entries account for every bullet. The fleet never grows. Which bullets survive is stated by CollideSpends. |
| Bullets.ConsumedFirst | alien_invasion.py:134-135 | The first bullet is used up iff its sweep removes an alien. |
| Bullets.ConsumedShift | alien_invasion.py:134-135 | A later bullet is used up against the fleet the first bullet left iff it is used up in the whole pass. |
| Bullets.UnspentShift | alien_invasion.py:134-135 | The unspent bullets after the first, counted against the fleet the first bullet left, are those of the whole pass. |
| Bullets.CollideSpends | alien_invasion.py:134-135 | The surviving bullets are exactly the unspent ones, in their original order. A bullet is removed iff it overlaps an alien that no earlier bullet overlaps. |
| Bullets.FirstBulletSpent | alien_invasion.py:134-135 | Two bullets on the same lone alien: the first is used up and scores it, and the second survives. |
| Bullets.CollideRemovesOnly | alien_invasion.py:134-135 | The surviving bullets and aliens are drawn, copy for copy, from the ones given. |
| Bullets.HitsCountDestroyed | alien_invasion.py:134-139 | The hit entries add up to the number of aliens removed, so each alien is counted once. |
| Bullets.NoHitsKeepsAll | alien_invasion.py:134-135 | A pass with no hits leaves both the bullets and the fleet exactly as they were. |
| Bullets.CollideKills | alien_invasion.py:134-135 | An alien is removed iff some bullet overlaps it: every copy of it goes when one does, and every copy stays otherwise. |
| Bullets.CollideKeepsMisses | alien_invasion.py:134-135 | A bullet that overlaps none of the aliens survives the pass. |
| Bullets.SurvivorsApart | alien_invasion.py:134-135 | After the pass, no surviving bullet overlaps a surviving alien. |
| Bullets.NoHitsNoChange | alien_invasion.py:134-139 | The fleet is unchanged iff the collision dict is empty. In that case the bullets are unchanged too. |
| AlienInvasion.ResetStats | alien_invasion.py:77-78 | A new game has ships_left equal to ship_limit, score 0 and level 1. |
| AlienInvasion.Start | alien_invasion.py:17-39 | Initial state: default settings, reset stats, no bullets, a fresh fleet, inactive. The ship is a new ship for the 1200x800 screen, centred and at rest. The alien size is the one given. It satisfies the invariant. |
| AlienInvasion.FireBullet | alien_invasion.py:113-117 | The capped fire on the game state. Only the bullets can change, and the invariant is kept. |
| AlienInvasion.OnKeyDown | alien_invasion.py:95-104 | RIGHT sets moving_right and LEFT sets moving_left, each alone. Q, and only Q, exits. SPACE fires whether or not a game is active. Other keys change nothing. |
| AlienInvasion.OnKeyUp | alien_invasion.py:106-111 | Releasing RIGHT clears only moving_right, and releasing LEFT clears only moving_left. Other keys change nothing. |
| AlienInvasion.CheckPlayButton | alien_invasion.py:70-93 | A miss, or a click during a game, changes nothing. Otherwise: settings reset, stats reset, active, bullets emptied, fresh fleet, ship recentred. |
| AlienInvasion.NewGameFromDefaults | alien_invasion.py:70-90 | Every new game starts from exactly the default settings, however far the last game got. A second click is a no-op. |
| AlienInvasion.HandleEvent | alien_invasion.py:57-68 | The event ends the process iff it is a window close or Q. A key press goes to the key-press handler with a bullet spawned at the ship, a key release to the key-release handler, and a click to the play-button check. Other event types change nothing, and the invariant is kept. |
| AlienInvasion.ProcessEvents | alien_invasion.py:57-68 | Draining the frame's events ends the process iff some event closes the window or presses Q. Later events are then not handled. No events leave the game as it was. Otherwise the first event is handled and the rest are drained from its result. |
| AlienInvasion.SteerStep | alien_invasion.py:95-111 | One event that does not quit keeps the game running. A right-arrow press sets the right-movement flag, a release clears it, and every other event leaves it alone. |
| AlienInvasion.NoSteerKeeps | alien_invasion.py:57-68 | A frame with no quit and no right-arrow press or release leaves the right-movement flag as it was. |
| AlienInvasion.LastSteerDecides | alien_invasion.py:57-68 | In a frame with no quit, a right-arrow press or release with none after it decides the right-movement flag: set for a press, clear for a release. |
| AlienInvasion.LastRightKeyWins | alien_invasion.py:57-68 | A frame with no quit keeps running. The last right-arrow press or release decides whether the ship moves right, and with neither the flag keeps its value. |
| AlienInvasion.ProcessEventsPreservesInv | alien_invasion.py:57-68 | Draining a frame's events keeps the invariant. |
| AlienInvasion.QuitEndsFrame | alien_invasion.py:59-61 | A quit event anywhere in the frame's events ends the process. |
| AlienInvasion.ScoreGain | alien_invasion.py:137-139 | With non-negative points the score gain is non-negative. |
| AlienInvasion.ScoreGainTotal | alien_invasion.py:137-139 | The per-bullet sum of points times aliens hit equals points times the total destroyed. |
| AlienInvasion.CheckBulletAlienCollisions | alien_invasion.py:131-151 | Score grows by exactly alien_points times the aliens destroyed. If the fleet is then empty, four things happen once: bullets cleared, fleet rebuilt, one speed-up, level + 1. Otherwise the survivors remain and settings and level stay. |
| AlienInvasion.FleetNeverEmpty | alien_invasion.py:143-146 | On a screen with room for an alien, the fleet is never empty after collision handling. |
| AlienInvasion.NoCollisionNoScore | alien_invasion.py:137-150 | With no bullet overlapping an alien and a non-empty fleet, the handler changes nothing. |
| Bullets.NoOverlapNoHits | alien_invasion.py:134-137 | If no bullet overlaps any alien, the collision dict is empty. |
| AlienInvasion.Stepped | alien_invasion.py:122 | Each bullet moved once at the bullet speed, one for one and in order. |
| AlienInvasion.Flight | alien_invasion.py:122-127 | The bullets after their move and the expiry are at most as many as before. All are live, and a bullet is among them iff it is live and is one of the moved bullets. |
| AlienInvasion.PassScore | alien_invasion.py:137-140 | Summing alien_points over each bullet's hits gives alien_points times the aliens destroyed. |
| AlienInvasion.UpdateBullets | alien_invasion.py:119-129 | The score grows by alien_points times the aliens that the moved, live bullets destroy. If none is left, the bullets are cleared, a new fleet is built, the speed goes up once and the level rises by one. Otherwise the surviving bullets and aliens of that pass remain, with settings and level unchanged. Every bullet left has its bottom above 0. The ship, the active flag and ships_left are untouched. The invariant is kept. |
| AlienInvasion.ShipHit | alien_invasion.py:153-172 | With ships in reserve: one fewer ship, bullets emptied, fresh fleet, ship recentred. Nothing else changes, so the game stays active with the same settings, score, level and alien size. With none left: only game_active becomes false. |
| AlienInvasion.HitsCountDown | alien_invasion.py:153-172 | From an active game, n <= ships_left hits leave ships_left - n ships and the game running. One more hit ends it with 0 ships, never negative. |
| AlienInvasion.ThreeShips | alien_invasion.py:153-172 | From 3 ships, hits leave 2, 1, 0 with the game running. The fourth hit is game over. |
| AlienInvasion.CheckAliensBottom | alien_invasion.py:186-192 | An alien at or below the bottom triggers exactly one hit. Otherwise nothing changes. |
| AlienInvasion.CheckGameFleetEdges | alien_invasion.py:219-230 | One drop and one direction reversal if any alien is at an edge. Nothing but the fleet and the direction changes. |
| AlienInvasion.UpdateAliens | alien_invasion.py:174-184 | The alien phase keeps the invariant and never changes score or level. It never raises ships_left. The ship either stays or is re-centred. |
| AlienInvasion.Simulate | alien_invasion.py:49-52 | The ship ends where its own update put it, or re-centred after a hit. The score grows by alien_points times the aliens that the frame's bullets destroy after their flight. ships_left never rises, and the invariant is kept. |
| AlienInvasion.Tick | alien_invasion.py:44-55 | The frame ends the process iff one of its events closes the window or presses Q. |
| AlienInvasion.TickPreservesInv | alien_invasion.py:44-55 | Every frame keeps the invariant: bullets at most the cap, ships_left at most the limit, level at least 1, score non-negative, settings valid with the default statics. |
| AlienInvasion.IdleFrameIsFrozen | alien_invasion.py:49-54 | Without input, an inactive game does not change. |

## Left out

- Rendering, the window and image loading are not modelled. This covers `_update_screen`, `blitme`, colours and `pygame.display`. None of them change the game state.
- Frame pacing is not modelled: `clock.tick(60)` and the `sleep(0.5)` after a lost life have no effect on the state.
- Mouse cursor visibility is not modelled. It is a UI call.
- The scoreboard's `prep_*` calls and `check_high_score` are not modelled. scoreboard.py is not part of this model, so the high score is not modelled either.
- `GameStats.reset_stats` is taken to set ships_left = ship_limit, score 0 and level 1. game_stats.py is not part of this model.
- Alien.update, Alien.check_edges, the Bullet constructor and Bullet.update are parameters of the model (`Physics`). alien.py and bullet.py are not part of this model. The aliens' sub-pixel float x is not kept; an alien is its integer rectangle corner.
- A bullet's sub-pixel float y is not kept either: `Bullet` is its rectangle alone, so `bulletStep` works on whole pixels and cannot reproduce the float accumulation of `Bullet.update`.
- A bullet's lifetime of ceil(Y/S) frames is not proved. It depends on Bullet.update, which is not part of this model.
- pygame's rectangle overlap tests (`colliderect`, `collidepoint`) are parameters, not computed. This includes the overlap inside `groupcollide` and `spritecollideany`.
- The Play button's hit test is a boolean on the mouse event. button.py is not part of this model.
- Speeds are exact reals, not IEEE doubles. The speed-up factor 1.1 is exact here and inexact in Python. While 3p < 2^53, the product p * 1.5 of a whole point value p is exact in a double, so `alien_points` (50, 75, 112, ...) is modelled exactly with truncation toward zero. That holds for roughly the first 78 cleared levels.
- GameSettings.IncreaseSpeed: beyond about 78 cleared levels (3p >= 2^53), Python's `int(float(p) * 1.5)` rounds the product and can differ from the model's floor(3p/2). Much later, once p * 1.5 passes the largest double, the product is infinite and `int()` of it raises OverflowError. The model's points grow without bound and never fail.
- Fleet.CreateFleet: requires alien width and height above zero. With a zero size, the two `while` loops of `_create_fleet` (alien_invasion.py:202-203) never end.
- AlienInvasion.UpdateAliens: the contract states only the invariant, the score, level and lives bounds, and that the ship stays or is re-centred. Its full effect is the composition of `CheckGameFleetEdges`, the alien moves, `ShipHit` and `CheckAliensBottom`, each specified on its own.
- AlienInvasion.Tick: the contract states only when the frame ends the process. The invariant is `TickPreservesInv` and the idle case is `IdleFrameIsFrozen`.

=== FILE: alien_invasion.dfy ===
/** The game as a whole: the state the main loop owns and the handlers that
    change it, each a pure function from the state before to the state
    after. pygame's geometry and the sprite classes whose code is not part
    of this model enter as the functions of `Physics`. */
module AlienInvasion {
  import opened Geometry
  import opened Sequences
  import opened GameSettings
  import opened ShipMotion
  import opened Fleet
  import opened Bullets

  /** Score, level and lives of the game in progress. */
  datatype Stats = Stats(score: int, level: int, shipsLeft: nat)

  /** The statistics of a new game: all ships, no score, level one. */
  function ResetStats(s: Settings): (r: Stats)
    ensures r.shipsLeft == s.shipLimit && r.score == 0 && r.level == 1
  {
    Stats(0, 1, s.shipLimit)
  }

  datatype Game = Game(
    settings: Settings,
    stats: Stats,
    ship: Ship,
    bullets: seq<Bullet>,
    aliens: seq<Cell>,
    alienWidth: Extent,
    alienHeight: Extent,
    active: bool)

  /** The sprite behaviour and collision geometry the loop relies on. */
  datatype Physics = Physics(
    spawn: Ship -> Bullet,                // a new bullet, placed from the ship
    bulletStep: (Bullet, real) -> Bullet, // a bullet's move at the given speed
    alienStep: (Cell, Settings) -> Cell,  // an alien's move with the fleet's speed and direction
    atEdge: Cell -> bool,                 // an alien touches a side of the screen
    overlaps: (Bullet, Cell) -> bool,     // a bullet's and an alien's rectangles overlap
    touches: (Ship, Cell) -> bool)        // the ship's and an alien's rectangles overlap

  datatype Key = RightKey | LeftKey | QKey | SpaceKey | OtherKey

  datatype Event = QuitEvent | KeyDown(key: Key) | KeyUp(key: Key) | MouseDown(onPlayButton: bool) | OtherEvent

  /** The loop either keeps running with a new state or the process exits. */
  datatype Outcome = Running(game: Game) | Exited

  /** What every reachable state satisfies: valid settings with the default
      static values, no more bullets than allowed, no more ships than the
      limit, a level of at least one and a non-negative score. */
  predicate Inv(g: Game)
  {
    && Valid(g.settings)
    && SameStatic(g.settings, New())
    && |g.bullets| <= g.settings.bulletsAllowed
    && g.stats.shipsLeft <= g.settings.shipLimit
    && g.stats.level >= 1
    && g.stats.score >= 0
  }

  /** A fresh fleet for the game's screen and alien size. */
  function NewFleet(g: Game): seq<Cell>
  {
    Build(g.alienWidth, g.alienHeight, g.settings.screenWidth, g.settings.screenHeight)
  }

  /** The ship moved back to the bottom centre of the game's screen. */
  function Recentred(g: Game): Ship
  {
    CenterShip(g.ship, g.settings.screenWidth, g.settings.screenHeight)
  }

  /** The game as it is set up before the first frame: default settings, a
      full set of ships, a centred ship at rest, a fresh fleet, no bullets,
      and the play button waiting. */
  function Start(shipWidth: nat, shipHeight: nat, aw: Extent, ah: Extent): (g: Game)
    ensures Inv(g)
    ensures !g.active && g.bullets == [] && g.aliens == NewFleet(g)
    ensures g.settings == New() && g.stats == ResetStats(New())
    ensures !g.ship.movingLeft && !g.ship.movingRight
    ensures g.ship.rect.CenterX() == 600 && g.ship.rect.Bottom() == 800
    ensures g.ship == NewShip(shipWidth, shipHeight, 1200, 800)
    ensures g.alienWidth == aw && g.alienHeight == ah
  {
    var s := New();
    var ship := NewShip(shipWidth, shipHeight, s.screenWidth, s.screenHeight);
    Game(s, ResetStats(s), ship, [], Build(aw, ah, s.screenWidth, s.screenHeight), aw, ah, false)
  }

  // ---------------------------------------------------------------- input

  /** Space: a new bullet joins the group if the cap allows it. */
  function FireBullet(g: Game, shot: Bullet): (r: Game)
    ensures r == g.(bullets := r.bullets)
    ensures |g.bullets| < g.settings.bulletsAllowed ==> r.bullets == g.bullets + [shot]
    ensures |g.bullets| >= g.settings.bulletsAllowed ==> r == g
    ensures Inv(g) ==> Inv(r)
  {
    g.(bullets := Fire(g.bullets, g.settings.bulletsAllowed, shot))
  }

  /** A key press: the arrows set a movement flag, Q quits and Space fires;
      other keys change nothing. Firing is not tied to the game being active. */
  function OnKeyDown(g: Game, key: Key, shot: Bullet): (r: Outcome)
    ensures key == QKey <==> r.Exited?
    ensures key == RightKey ==> r == Running(g.(ship := g.ship.(movingRight := true)))
    ensures key == LeftKey ==> r == Running(g.(ship := g.ship.(movingLeft := true)))
    ensures key == SpaceKey ==> r == Running(FireBullet(g, shot))
    ensures key == OtherKey ==> r == Running(g)
    ensures Inv(g) && r.Running? ==> Inv(r.game)
  {
    match key
    case RightKey => Running(g.(ship := g.ship.(movingRight := true)))
    case LeftKey => Running(g.(ship := g.ship.(movingLeft := true)))
    case QKey => Exited
    case SpaceKey => Running(FireBullet(g, shot))
    case OtherKey => Running(g)
  }

  /** A key release: the arrows clear their own flag and nothing else. */
  function OnKeyUp(g: Game, key: Key): (r: Game)
    ensures key == RightKey ==> !r.ship.movingRight && r.ship.movingLeft == g.ship.movingLeft
    ensures key == LeftKey ==> !r.ship.movingLeft && r.ship.movingRight == g.ship.movingRight
    ensures r == g.(ship := g.ship.(movingRight := r.ship.movingRight, movingLeft := r.ship.movingLeft))
    ensures key != RightKey && key != LeftKey ==> r == g
    ensures Inv(g) ==> Inv(r)
  {
    match key
    case RightKey => g.(ship := g.ship.(movingRight := false))
    case LeftKey => g.(ship := g.ship.(movingLeft := false))
    case _ => g
  }

  /** A click starts a new game only when it lands on the play button while
      no game is running: dynamic settings and statistics are reset, the
      groups are emptied, a fresh fleet is built and the ship recentred. */
  function CheckPlayButton(g: Game, clicked: bool): (r: Game)
    ensures !clicked || g.active ==> r == g
    ensures clicked && !g.active ==>
      && r.active
      && r.settings == InitializeDynamicSettings(g.settings)
      && r.stats == ResetStats(g.settings)
      && r.bullets == []
      && r.aliens == NewFleet(g)
      && r.ship == Recentred(g)
      && r.alienWidth == g.alienWidth && r.alienHeight == g.alienHeight
    ensures Inv(g) ==> Inv(r)
  {
    if clicked && !g.active then
      var s := InitializeDynamicSettings(g.settings);
      ResetToDefaults(g.settings);
      g.(settings := s, stats := ResetStats(s), active := true,
         bullets := [], aliens := NewFleet(g), ship := Recentred(g))
    else g
  }

  /** Every new game starts from exactly the default settings, however many
      levels the previous game cleared, and a second click changes nothing. */
  lemma NewGameFromDefaults(g: Game)
    requires Inv(g) && !g.active
    ensures CheckPlayButton(g, true).settings == New()
    ensures CheckPlayButton(CheckPlayButton(g, true), true) == CheckPlayButton(g, true)
  {
    ResetToDefaults(g.settings);
  }

  /** The events that end the process: closing the window, or Q. */
  predicate Quits(e: Event)
  {
    e == QuitEvent || e == KeyDown(QKey)
  }

  /** One input event. */
  function HandleEvent(g: Game, e: Event, spawn: Ship -> Bullet): (r: Outcome)
    ensures r.Exited? <==> Quits(e)
    ensures e == QuitEvent ==> r == Exited
    ensures e.KeyDown? ==> r == OnKeyDown(g, e.key, spawn(g.ship))
    ensures e.KeyUp? ==> r == Running(OnKeyUp(g, e.key))
    ensures e.MouseDown? ==> r == Running(CheckPlayButton(g, e.onPlayButton))
    ensures e == OtherEvent ==> r == Running(g)
    ensures Inv(g) && r.Running? ==> Inv(r.game)
  {
    match e
    case QuitEvent => Exited
    case KeyDown(k) => OnKeyDown(g, k, spawn(g.ship))
    case KeyUp(k) => Running(OnKeyUp(g, k))
    case MouseDown(on) => Running(CheckPlayButton(g, on))
    case OtherEvent => Running(g)
  }

  /** The events of one frame, in order; a quit ends the process at once. */
  function ProcessEvents(g: Game, events: seq<Event>, spawn: Ship -> Bullet): (r: Outcome)
    ensures r.Exited? <==> exists i :: 0 <= i < |events| && Quits(events[i])
    ensures events == [] ==> r == Running(g)
    ensures events != [] && !Quits(events[0]) ==>
      r == ProcessEvents(HandleEvent(g, events[0], spawn).game, events[1..], spawn)
    decreases |events|
  {
    if events == [] then Running(g)
    else
      QuitsSplit(events);
      match HandleEvent(g, events[0], spawn)
      case Exited => Exited
      case Running(g1) => ProcessEvents(g1, events[1..], spawn)
  }

  /** Some event of a non-empty sequence quits iff its first one does or
      some later one does. */
  lemma QuitsSplit(events: seq<Event>)
    requires events != []
    ensures (exists i :: 0 <= i < |events| && Quits(events[i])) <==>
      Quits(events[0]) || exists i :: 0 <= i < |events[1..]| && Quits(events[1..][i])
  {
    if exists i :: 0 <= i < |events[1..]| && Quits(events[1..][i]) {
      var i :| 0 <= i < |events[1..]| && Quits(events[1..][i]);
      assert events[i + 1] == events[1..][i];
    }
    if exists i :: 0 <= i < |events| && Quits(events[i]) {
      var i :| 0 <= i < |events| && Quits(events[i]);
      if i > 0 {
        assert events[1..][i - 1] == events[i];
      }
    }
  }

  /** The events that set or clear `moving_right`. */
  predicate SteersRight(e: Event)
  {
    e == KeyDown(RightKey) || e == KeyUp(RightKey)
  }

  /** One event that does not quit sets the right-movement flag when it is a
      press or release of the right arrow, and leaves it alone otherwise. */
  lemma SteerStep(g: Game, e: Event, spawn: Ship -> Bullet)
    requires !Quits(e)
    ensures HandleEvent(g, e, spawn).Running?
    ensures HandleEvent(g, e, spawn).game.ship.movingRight ==
      if SteersRight(e) then e == KeyDown(RightKey) else g.ship.movingRight
  {
  }

  /** The events after the first of a frame without a quit have no quit. */
  lemma NoQuitTail(events: seq<Event>)
    requires events != []
    requires forall i :: 0 <= i < |events| ==> !Quits(events[i])
    ensures forall i :: 0 <= i < |events[1..]| ==> !Quits(events[1..][i])
  {
    forall i | 0 <= i < |events[1..]| ensures !Quits(events[1..][i]) {
      assert events[1..][i] == events[i + 1];
    }
  }

  /** A frame without a quit and without a right-arrow press or release
      leaves the right-movement flag as it was. */
  lemma {:induction false} NoSteerKeeps(g: Game, events: seq<Event>, spawn: Ship -> Bullet)
    requires forall i :: 0 <= i < |events| ==> !Quits(events[i])
    requires forall i :: 0 <= i < |events| ==> !SteersRight(events[i])
    ensures ProcessEvents(g, events, spawn).Running?
    ensures ProcessEvents(g, events, spawn).game.ship.movingRight == g.ship.movingRight
    decreases |events|
  {
    if events != [] {
      var tail := events[1..];
      SteerStep(g, events[0], spawn);
      NoQuitTail(events);
      assert forall i :: 0 <= i < |tail| ==> !SteersRight(tail[i]) by {
        forall i | 0 <= i < |tail| ensures !SteersRight(tail[i]) {
          assert tail[i] == events[i + 1];
        }
      }
      NoSteerKeeps(HandleEvent(g, events[0], spawn).game, tail, spawn);
    }
  }

  /** In a frame without a quit, a right-arrow press or release at index i
      with none after it decides the right-movement flag. */
  lemma {:induction false} LastSteerDecides(g: Game, events: seq<Event>, spawn: Ship -> Bullet, i: nat)
    requires forall k :: 0 <= k < |events| ==> !Quits(events[k])
    requires i < |events| && SteersRight(events[i])
    requires forall j :: i < j < |events| ==> !SteersRight(events[j])
    ensures ProcessEvents(g, events, spawn).Running?
    ensures ProcessEvents(g, events, spawn).game.ship.movingRight == (events[i] == KeyDown(RightKey))
    decreases |events|
  {
    var tail := events[1..];
    var g1 := HandleEvent(g, events[0], spawn).game;
    SteerStep(g, events[0], spawn);
    NoQuitTail(events);
    if i == 0 {
      assert forall j :: 0 <= j < |tail| ==> !SteersRight(tail[j]) by {
        forall j | 0 <= j < |tail| ensures !SteersRight(tail[j]) {
          assert tail[j] == events[j + 1];
        }
      }
      NoSteerKeeps(g1, tail, spawn);
    } else {
      assert tail[i - 1] == events[i];
      assert forall j :: i - 1 < j < |tail| ==> !SteersRight(tail[j]) by {
        forall j | i - 1 < j < |tail| ensures !SteersRight(tail[j]) {
          assert tail[j] == events[j + 1];
        }
      }
      LastSteerDecides(g1, tail, spawn, i - 1);
    }
  }

  /** In a frame without a quit, the last press or release of the right
      arrow decides whether the ship is moving right; with neither, the
      flag keeps its value. Every other event leaves it alone. */
  lemma LastRightKeyWins(g: Game, events: seq<Event>, spawn: Ship -> Bullet)
    requires forall i :: 0 <= i < |events| ==> !Quits(events[i])
    ensures ProcessEvents(g, events, spawn).Running?
    ensures (forall i :: 0 <= i < |events| ==> !SteersRight(events[i])) ==>
      ProcessEvents(g, events, spawn).game.ship.movingRight == g.ship.movingRight
    ensures forall i ::
      (0 <= i < |events| && SteersRight(events[i]) && forall j :: i < j < |events| ==> !SteersRight(events[j])) ==>
      ProcessEvents(g, events, spawn).game.ship.movingRight == (events[i] == KeyDown(RightKey))
  {
    if forall i :: 0 <= i < |events| ==> !SteersRight(events[i]) {
      NoSteerKeeps(g, events, spawn);
    }
    forall i | 0 <= i < |events| && SteersRight(events[i]) && (forall j :: i < j < |events| ==> !SteersRight(events[j]))
      ensures ProcessEvents(g, events, spawn).game.ship.movingRight == (events[i] == KeyDown(RightKey))
    {
      LastSteerDecides(g, events, spawn, i);
    }
  }

  /** Handling a frame's events keeps the invariant. */
  lemma {:induction false} ProcessEventsPreservesInv(g: Game, events: seq<Event>, spawn: Ship -> Bullet)
    requires Inv(g)
    ensures ProcessEvents(g, events, spawn).Running? ==> Inv(ProcessEvents(g, events, spawn).game)
    decreases |events|
  {
    if events != [] {
      var r := HandleEvent(g, events[0], spawn);
      if r.Running? {
        ProcessEventsPreservesInv(r.game, events[1..], spawn);
      }
    }
  }

  // -------------------------------------------------------------- bullets

  /** What the collision handler adds to the score: for each bullet that hit
      something, the point value times the aliens it destroyed. */
  function ScoreGain(hits: seq<nat>, points: int): (gain: int)
    ensures points >= 0 ==> gain >= 0
  {
    if hits == [] then 0 else points * hits[0] + ScoreGain(hits[1..], points)
  }

  /** The gain is the point value times the number of aliens destroyed. */
  lemma {:induction false} ScoreGainTotal(hits: seq<nat>, points: int)
    ensures ScoreGain(hits, points) == points * Sum(hits)
  {
    if hits != [] {
      ScoreGainTotal(hits[1..], points);
      assert points * (hits[0] + Sum(hits[1..])) == points * hits[0] + points * Sum(hits[1..]);
    }
  }

  /** The number of aliens the collision pass destroys. */
  function Destroyed(g: Game, overlaps: (Bullet, Cell) -> bool): nat
  {
    |g.aliens| - |GroupCollide(g.bullets, g.aliens, overlaps).aliens|
  }

  /** Removes colliding bullets and aliens and scores the aliens destroyed;
      when that leaves the fleet empty, the bullets are cleared, a fresh
      fleet is built, the game speeds up once and the level goes up by one. */
  function CheckBulletAlienCollisions(g: Game, overlaps: (Bullet, Cell) -> bool): (r: Game)
    ensures r.stats.score == g.stats.score + g.settings.alienPoints * Destroyed(g, overlaps)
    ensures r.stats.shipsLeft == g.stats.shipsLeft
    ensures r.ship == g.ship && r.active == g.active
    ensures r.alienWidth == g.alienWidth && r.alienHeight == g.alienHeight
    ensures var left := GroupCollide(g.bullets, g.aliens, overlaps);
      if left.aliens == [] then
        && r.bullets == []
        && r.aliens == NewFleet(g)
        && r.settings == IncreaseSpeed(g.settings)
        && r.stats.level == g.stats.level + 1
      else
        && r.bullets == left.bullets
        && r.aliens == left.aliens
        && r.settings == g.settings
        && r.stats.level == g.stats.level
    ensures Inv(g) ==> Inv(r)
  {
    var c := GroupCollide(g.bullets, g.aliens, overlaps);
    PassScore(g, overlaps);
    assert |c.bullets| <= |g.bullets| by {
      assert |c.bullets| + |c.hits| == |g.bullets|;
    }
    ApplyCollisions(g, c, ScoreGain(c.hits, g.settings.alienPoints))
  }

  /** The handler's bookkeeping once the pass has run: keep the survivors
      and add the gain, or, when the fleet is gone, clear the bullets,
      rebuild the fleet, speed up and go up a level. */
  function ApplyCollisions(g: Game, c: Collisions, gain: int): (r: Game)
    ensures r.stats.score == g.stats.score + gain
    ensures r.stats.shipsLeft == g.stats.shipsLeft
    ensures r.ship == g.ship && r.active == g.active
    ensures r.alienWidth == g.alienWidth && r.alienHeight == g.alienHeight
    ensures if c.aliens == [] then
        && r.bullets == []
        && r.aliens == NewFleet(g)
        && r.settings == IncreaseSpeed(g.settings)
        && r.stats.level == g.stats.level + 1
      else
        && r.bullets == c.bullets
        && r.aliens == c.aliens
        && r.settings == g.settings
        && r.stats.level == g.stats.level
    ensures Inv(g) && |c.bullets| <= |g.bullets| && gain >= 0 ==> Inv(r)
  {
    var scored := g.(bullets := c.bullets, aliens := c.aliens,
                     stats := g.stats.(score := g.stats.score + gain));
    if c.aliens == [] then
      scored.(bullets := [], aliens := NewFleet(g), settings := IncreaseSpeed(g.settings),
              stats := scored.stats.(level := g.stats.level + 1))
    else scored
  }

  /** The pass scores the point value once for every alien it destroys. */
  lemma PassScore(g: Game, overlaps: (Bullet, Cell) -> bool)
    ensures ScoreGain(GroupCollide(g.bullets, g.aliens, overlaps).hits, g.settings.alienPoints) ==
            g.settings.alienPoints * Destroyed(g, overlaps)
  {
    var c := GroupCollide(g.bullets, g.aliens, overlaps);
    ScoreGainTotal(c.hits, g.settings.alienPoints);
    HitsCountDestroyed(g.bullets, g.aliens, overlaps);
    SameProduct(g.settings.alienPoints, g.settings.alienPoints, Sum(c.hits), Destroyed(g, overlaps));
  }

  lemma SameProduct(j: int, k: int, x: int, y: int)
    requires j == k && x == y
    ensures j * x == k * y
  {
  }

  /** On a screen with room for at least one alien, the fleet is never
      empty after the collision handler: an emptied fleet is rebuilt. */
  lemma FleetNeverEmpty(g: Game, overlaps: (Bullet, Cell) -> bool)
    requires g.settings.screenWidth > 3 * g.alienWidth && g.settings.screenHeight > 4 * g.alienHeight
    ensures CheckBulletAlienCollisions(g, overlaps).aliens != []
  {
    BuildNonEmpty(g.alienWidth, g.alienHeight, g.settings.screenWidth, g.settings.screenHeight);
  }

  /** With no bullet touching an alien, nothing is destroyed and the score
      stays; the fleet is only rebuilt if it was already empty. */
  lemma NoCollisionNoScore(g: Game, overlaps: (Bullet, Cell) -> bool)
    requires Clear(g.bullets, g.aliens, overlaps)
    requires g.aliens != []
    ensures CheckBulletAlienCollisions(g, overlaps) == g
  {
    NoOverlapNoHits(g.bullets, g.aliens, overlaps);
    NoHitsNoChange(g.bullets, g.aliens, overlaps);
  }

  /** Every bullet moved once at the game's bullet speed, in order. */
  function Stepped(g: Game, p: Physics): (r: seq<Bullet>)
    ensures |r| == |g.bullets|
    ensures forall i :: 0 <= i < |g.bullets| ==> r[i] == p.bulletStep(g.bullets[i], g.settings.bulletSpeed)
  {
    Map(g.bullets, b => p.bulletStep(b, g.settings.bulletSpeed))
  }

  /** The bullets after one frame of flight: each moved once at the
      bullet speed, and the ones that left the top dropped, in order: the
      filter `Expire` applies, on the moved bullets. */
  function Flight(g: Game, p: Physics): (r: seq<Bullet>)
    ensures |r| <= |g.bullets|
    ensures forall i :: 0 <= i < |r| ==> Live(r[i])
    ensures forall b :: b in r <==> b in Stepped(g, p) && Live(b)
  {
    var r := Keep(Stepped(g, p), Live);
    assert forall b :: b in r <==> b in Stepped(g, p) && Live(b) by {
      forall b ensures b in r <==> b in Stepped(g, p) && Live(b) {
        KeepContents(Stepped(g, p), Live, b);
      }
    }
    r
  }

  /** The number of aliens the frame's bullets destroy after their flight. */
  function Killed(g: Game, p: Physics): nat
  {
    |g.aliens| - |GroupCollide(Flight(g, p), g.aliens, p.overlaps).aliens|
  }

  /** Moves the bullets, drops the ones off the top, then resolves
      collisions between what is left and the fleet: the score grows by
      the point value for each alien destroyed, and an emptied fleet
      brings the next level. */
  function UpdateBullets(g: Game, p: Physics): (r: Game)
    ensures r.stats.score == g.stats.score + g.settings.alienPoints * Killed(g, p)
    ensures var c := GroupCollide(Flight(g, p), g.aliens, p.overlaps);
      if c.aliens == [] then
        && r.bullets == []
        && r.aliens == NewFleet(g)
        && r.settings == IncreaseSpeed(g.settings)
        && r.stats.level == g.stats.level + 1
      else
        && r.bullets == c.bullets
        && r.aliens == c.aliens
        && r.settings == g.settings
        && r.stats.level == g.stats.level
    ensures forall i :: 0 <= i < |r.bullets| ==> Live(r.bullets[i])
    ensures r.ship == g.ship && r.active == g.active && r.stats.shipsLeft == g.stats.shipsLeft
    ensures Inv(g) ==> Inv(r)
  {
    var moved := Flight(g, p);
    var c := GroupCollide(moved, g.aliens, p.overlaps);
    CollideRemovesOnly(moved, g.aliens, p.overlaps);
    SubMultisetMembers(c.bullets, moved);
    var loaded := g.(bullets := moved);
    SameProduct(loaded.settings.alienPoints, g.settings.alienPoints, Destroyed(loaded, p.overlaps), Killed(g, p));
    CheckBulletAlienCollisions(loaded, p.overlaps)
  }

  // --------------------------------------------------------------- aliens

  /** A lost life: with ships in reserve, one is used, the groups are
      emptied, a fresh fleet is built and the ship recentred; with none
      left, the game stops and nothing else changes. */
  function ShipHit(g: Game): (r: Game)
    ensures g.stats.shipsLeft > 0 ==>
      r == g.(stats := g.stats.(shipsLeft := g.stats.shipsLeft - 1),
              bullets := [], aliens := NewFleet(g), ship := Recentred(g))
    ensures g.stats.shipsLeft == 0 ==> r == g.(active := false)
    ensures Inv(g) ==> Inv(r)
  {
    if g.stats.shipsLeft > 0 then
      g.(stats := g.stats.(shipsLeft := g.stats.shipsLeft - 1),
         bullets := [], aliens := NewFleet(g), ship := Recentred(g))
    else g.(active := false)
  }

  /** `n` hits in a row. */
  function ShipHits(g: Game, n: nat): Game
  {
    if n == 0 then g else ShipHit(ShipHits(g, n - 1))
  }

  /** Each hit uses one ship while any are left, and only the hit after the
      last ship is gone ends the game. */
  lemma {:induction false} HitsCountDown(g: Game, n: nat)
    requires g.active
    ensures n <= g.stats.shipsLeft ==>
      ShipHits(g, n).active && ShipHits(g, n).stats.shipsLeft == g.stats.shipsLeft - n
    ensures n > g.stats.shipsLeft ==>
      !ShipHits(g, n).active && ShipHits(g, n).stats.shipsLeft == 0
  {
    if n > 0 {
      HitsCountDown(g, n - 1);
    }
  }

  /** From a full set of three ships, hits leave 2, 1 and 0 ships with the
      game still running; the fourth hit is game over. */
  lemma ThreeShips(g: Game)
    requires g.active && g.stats.shipsLeft == 3
    ensures ShipHits(g, 1).stats.shipsLeft == 2 && ShipHits(g, 1).active
    ensures ShipHits(g, 2).stats.shipsLeft == 1 && ShipHits(g, 2).active
    ensures ShipHits(g, 3).stats.shipsLeft == 0 && ShipHits(g, 3).active
    ensures !ShipHits(g, 4).active && ShipHits(g, 4).stats.shipsLeft == 0
  {
    HitsCountDown(g, 1);
    HitsCountDown(g, 2);
    HitsCountDown(g, 3);
    HitsCountDown(g, 4);
  }

  /** An alien reaching the bottom of the screen counts as a hit, once. */
  function CheckAliensBottom(g: Game): (r: Game)
    ensures AnyAtBottom(g.aliens, g.alienHeight, g.settings.screenHeight) ==> r == ShipHit(g)
    ensures !AnyAtBottom(g.aliens, g.alienHeight, g.settings.screenHeight) ==> r == g
    ensures Inv(g) ==> Inv(r)
  {
    if AnyAtBottom(g.aliens, g.alienHeight, g.settings.screenHeight) then ShipHit(g) else g
  }

  /** The fleet bounce applied to the game: at most one drop and one
      reversal of the fleet direction per frame. */
  function CheckGameFleetEdges(g: Game, atEdge: Cell -> bool): (r: Game)
    ensures AnyAtEdge(g.aliens, atEdge) ==>
      && r.aliens == Drop(g.aliens, g.settings.fleetDropSpeed)
      && r.settings == g.settings.(fleetDirection := -g.settings.fleetDirection)
    ensures !AnyAtEdge(g.aliens, atEdge) ==> r == g
    ensures r == g.(aliens := r.aliens, settings := g.settings.(fleetDirection := r.settings.fleetDirection))
    ensures Inv(g) ==> Inv(r)
  {
    var (fleet, direction) := CheckFleetEdges(g.aliens, g.settings.fleetDropSpeed, g.settings.fleetDirection, atEdge);
    g.(aliens := fleet, settings := g.settings.(fleetDirection := direction))
  }

  /** Some alien touches the ship. */
  predicate ShipTouched(ship: Ship, aliens: seq<Cell>, touches: (Ship, Cell) -> bool)
  {
    exists i :: 0 <= i < |aliens| && touches(ship, aliens[i])
  }

  /** The fleet's frame: bounce off an edge, move, then a touch of the ship
      and an alien at the bottom each count as a hit. */
  function UpdateAliens(g: Game, p: Physics): (r: Game)
    ensures Inv(g) ==> Inv(r)
    ensures r.stats.score == g.stats.score && r.stats.level == g.stats.level
    ensures r.stats.shipsLeft <= g.stats.shipsLeft
    ensures r.ship == g.ship || r.ship == Recentred(g)
  {
    var bounced := CheckGameFleetEdges(g, p.atEdge);
    var moved := bounced.(aliens := Map(bounced.aliens, c => p.alienStep(c, bounced.settings)));
    var touched := if ShipTouched(moved.ship, moved.aliens, p.touches) then ShipHit(moved) else moved;
    CheckAliensBottom(touched)
  }

  // ----------------------------------------------------------------- loop

  /** The simulation part of one frame: ship, bullets, aliens, in that
      order. The ship ends where its own update put it, or back in the
      centre after a hit; the score counts the aliens that the frame's
      bullets, after their flight, destroyed. */
  function Simulate(g: Game, p: Physics): (r: Game)
    ensures var moved := Update(g.ship, g.settings.screenWidth, g.settings.shipSpeed);
      r.ship == moved || r.ship == CenterShip(moved, g.settings.screenWidth, g.settings.screenHeight)
    ensures r.stats.score == g.stats.score + g.settings.alienPoints * Killed(g, p)
    ensures r.stats.shipsLeft <= g.stats.shipsLeft
    ensures Inv(g) ==> Inv(r)
  {
    var moved := g.(ship := Update(g.ship, g.settings.screenWidth, g.settings.shipSpeed));
    var shot := UpdateBullets(moved, p);
    assert shot.stats.score == g.stats.score + g.settings.alienPoints * Killed(g, p) by {
      assert Flight(moved, p) == Flight(g, p);
      SameProduct(moved.settings.alienPoints, g.settings.alienPoints, Killed(moved, p), Killed(g, p));
    }
    assert Inv(g) ==> Inv(shot) by {
      if Inv(g) { assert Inv(moved); }
    }
    assert shot.settings.screenWidth == g.settings.screenWidth && shot.settings.screenHeight == g.settings.screenHeight by {
      assert SameStatic(shot.settings, g.settings);
    }
    UpdateAliens(shot, p)
  }

  /** One pass of the main loop: drain the events, then simulate only while
      a game is active; an idle or finished game stays frozen. */
  function Tick(g: Game, events: seq<Event>, p: Physics): (r: Outcome)
    ensures QuitEvent in events ==> r == Exited
    ensures r.Exited? <==> exists i :: 0 <= i < |events| && Quits(events[i])
  {
    QuitEndsFrame(g, events, p.spawn);
    match ProcessEvents(g, events, p.spawn)
    case Exited => Exited
    case Running(g1) => Running(if g1.active then Simulate(g1, p) else g1)
  }

  /** A window-close event anywhere in the frame ends the process. */
  lemma QuitEndsFrame(g: Game, events: seq<Event>, spawn: Ship -> Bullet)
    ensures QuitEvent in events ==> ProcessEvents(g, events, spawn) == Exited
  {
  }

  /** Every frame keeps the invariant: in particular the live bullets never
      exceed the cap, the ships left never exceed the limit and the level
      and score never go below their starting values. */
  lemma TickPreservesInv(g: Game, events: seq<Event>, p: Physics)
    requires Inv(g)
    ensures Tick(g, events, p).Running? ==> Inv(Tick(g, events, p).game)
  {
    ProcessEventsPreservesInv(g, events, p.spawn);
  }

  /** Without input, an inactive game is frozen. */
  lemma IdleFrameIsFrozen(g: Game, p: Physics)
    requires !g.active
    ensures Tick(g, [], p) == Running(g)
  {
  }
}

=== FILE: bullets.dfy ===
/** The bullet group: the firing cap, expiry off the top of the screen, and
    the bullet/alien collision pass. */
module Bullets {
  import opened Geometry
  import opened Sequences

  /** A bullet, by the rectangle it is drawn and collided with. */
  datatype Bullet = Bullet(rect: Rect)

  /** A fire request: the new bullet joins the group only while fewer than
      `allowed` bullets are alive; otherwise the request is dropped. */
  function Fire(bullets: seq<Bullet>, allowed: nat, shot: Bullet): (r: seq<Bullet>)
    ensures |r| == |bullets| + 1 <==> |bullets| < allowed
    ensures |bullets| < allowed ==> r == bullets + [shot]
    ensures |bullets| >= allowed ==> r == bullets
    ensures |bullets| <= allowed ==> |r| <= allowed
  {
    if |bullets| < allowed then bullets + [shot] else bullets
  }

  /** Several fire requests in a row. */
  function FireAll(bullets: seq<Bullet>, allowed: nat, shots: seq<Bullet>): seq<Bullet>
    decreases |shots|
  {
    if shots == [] then bullets else FireAll(Fire(bullets, allowed, shots[0]), allowed, shots[1..])
  }

  /** However many shots are requested, the group fills up to the cap and
      no further; the bullets already alive stay at the front. */
  lemma {:induction false} FireAllCapped(bullets: seq<Bullet>, allowed: nat, shots: seq<Bullet>)
    requires |bullets| <= allowed
    ensures var r := FireAll(bullets, allowed, shots);
      |r| == if |bullets| + |shots| <= allowed then |bullets| + |shots| else allowed
    ensures |FireAll(bullets, allowed, shots)| >= |bullets|
    ensures FireAll(bullets, allowed, shots)[..|bullets|] == bullets
    decreases |shots|
  {
    if shots != [] {
      var next := Fire(bullets, allowed, shots[0]);
      FireAllCapped(next, allowed, shots[1..]);
      assert next[..|bullets|] == bullets;
      assert FireAll(bullets, allowed, shots)[..|bullets|] == FireAll(next, allowed, shots[1..])[..|next|][..|bullets|];
    }
  }

  /** A bullet stays alive while its bottom edge is below the top of the screen. */
  predicate Live(b: Bullet)
  {
    b.rect.Bottom() > 0
  }

  /** Removes the bullets that have left the top of the screen. */
  function Expire(bullets: seq<Bullet>): (r: seq<Bullet>)
    ensures forall i :: 0 <= i < |r| ==> r[i].rect.Bottom() > 0
    ensures forall b :: b in bullets && b.rect.Bottom() > 0 ==> b in r
    ensures forall b :: b in r ==> b in bullets
    ensures multiset(r) <= multiset(bullets)
    ensures (forall i :: 0 <= i < |bullets| ==> bullets[i].rect.Bottom() > 0) ==> r == bullets
    ensures forall b :: multiset(r)[b] == if Live(b) then multiset(bullets)[b] else 0
  {
    var r := Keep(bullets, Live);
    assert forall b :: multiset(r)[b] == (if Live(b) then multiset(bullets)[b] else 0) && (b in r <==> b in bullets && Live(b)) by {
      forall b ensures multiset(r)[b] == (if Live(b) then multiset(bullets)[b] else 0) && (b in r <==> b in bullets && Live(b)) {
        KeepCount(bullets, Live, b);
        KeepContents(bullets, Live, b);
      }
    }
    r
  }

  /** A single bullet survives expiry iff it is live. */
  lemma ExpireOne(b: Bullet)
    ensures Expire([b]) == if Live(b) then [b] else []
  {
    KeepOne(b, Live);
  }

  /** Expiry keeps the survivors in the order the group held them: expiring
      two stretches joined end to end gives the two results joined. */
  lemma ExpireConcat(s: seq<Bullet>, t: seq<Bullet>)
    ensures Expire(s + t) == Expire(s) + Expire(t)
  {
    KeepConcat(s, t, Live);
  }

  /** What the collision pass leaves: the surviving bullets and aliens, and
      for each bullet that hit something, how many aliens it destroyed. */
  datatype Collisions = Collisions(bullets: seq<Bullet>, aliens: seq<Cell>, hits: seq<nat>)

  /** The aliens a bullet does not overlap, in their original order: the
      same filter as expiry, with "missed by this bullet" as the test. */
  function Missed(b: Bullet, aliens: seq<Cell>, overlaps: (Bullet, Cell) -> bool): (r: seq<Cell>)
    ensures |r| <= |aliens|
    ensures multiset(r) <= multiset(aliens)
    ensures forall j :: 0 <= j < |r| ==> !overlaps(b, r[j])
    ensures |r| == |aliens| ==> r == aliens
    ensures forall a :: multiset(r)[a] == if overlaps(b, a) then 0 else multiset(aliens)[a]
  {
    var misses := a => !overlaps(b, a);
    var r := Keep(aliens, misses);
    assert forall a :: multiset(r)[a] == if overlaps(b, a) then 0 else multiset(aliens)[a] by {
      forall a ensures multiset(r)[a] == if overlaps(b, a) then 0 else multiset(aliens)[a] {
        KeepCount(aliens, misses, a);
      }
    }
    r
  }

  /** The sweep over a single alien keeps it iff the bullet misses it. */
  lemma MissedOne(b: Bullet, a: Cell, overlaps: (Bullet, Cell) -> bool)
    ensures Missed(b, [a], overlaps) == if overlaps(b, a) then [] else [a]
  {
    KeepOne(a, x => !overlaps(b, x));
  }

  /** The sweep treats every alien on its own and leaves the survivors
      where they were: sweeping two stretches of the fleet is sweeping
      each and putting the results side by side. Together with
      `MissedOne` this fixes the survivors' order. */
  lemma MissedConcat(b: Bullet, xs: seq<Cell>, ys: seq<Cell>, overlaps: (Bullet, Cell) -> bool)
    ensures Missed(b, xs + ys, overlaps) == Missed(b, xs, overlaps) + Missed(b, ys, overlaps)
  {
    KeepConcat(xs, ys, a => !overlaps(b, a));
  }

  /** One step of the sweep: the head alien is dropped or kept in front. */
  lemma MissedHead(b: Bullet, s: seq<Cell>, overlaps: (Bullet, Cell) -> bool)
    requires s != []
    ensures Missed(b, s, overlaps) ==
      if overlaps(b, s[0]) then Missed(b, s[1..], overlaps) else [s[0]] + Missed(b, s[1..], overlaps)
  {
    KeepHead(s, a => !overlaps(b, a));
  }

  /** A bullet that overlaps none of the aliens misses all of them. */
  lemma {:induction false} MissedAll(b: Bullet, aliens: seq<Cell>, overlaps: (Bullet, Cell) -> bool)
    requires Clear([b], aliens, overlaps)
    ensures Missed(b, aliens, overlaps) == aliens
  {
    if aliens != [] {
      assert Clear([b], aliens[1..], overlaps) by {
        forall i, j | 0 <= i < 1 && 0 <= j < |aliens[1..]| ensures !overlaps([b][i], aliens[1..][j]) {
          assert aliens[1..][j] == aliens[j + 1];
        }
      }
      assert !overlaps([b][0], aliens[0]);
      MissedAll(b, aliens[1..], overlaps);
      assert aliens == [aliens[0]] + aliens[1..];
    }
  }

  /** Bullets and aliens that overlap are destroyed together. Bullets are
      taken in order, and each one destroys every alien still alive that it
      overlaps, so an alien is destroyed (and counted) once even when
      several bullets overlap it. The bullets that hit something are
      removed; together with the `hits` entries they account for every
      bullet, and the hits add up to the number of aliens destroyed. */
  function GroupCollide(bullets: seq<Bullet>, aliens: seq<Cell>, overlaps: (Bullet, Cell) -> bool): (r: Collisions)
    ensures |r.bullets| + |r.hits| == |bullets|
    ensures 0 !in r.hits
    ensures |r.aliens| <= |aliens|
    decreases |bullets|
  {
    if bullets == [] then Collisions([], aliens, [])
    else
      var b := bullets[0];
      var left := Missed(b, aliens, overlaps);
      var rest := GroupCollide(bullets[1..], left, overlaps);
      if |left| < |aliens| then
        var hits := [|aliens| - |left|] + rest.hits;
        Collisions(rest.bullets, rest.aliens, hits)
      else
        Collisions([b] + rest.bullets, rest.aliens, rest.hits)
  }

  /** What is drawn from the tail of a sequence is drawn from the whole
      sequence, with or without the head put back in front. */
  lemma TailSubMultiset<T>(xs: seq<T>, s: seq<T>)
    requires s != [] && multiset(xs) <= multiset(s[1..])
    ensures multiset(xs) <= multiset(s)
    ensures multiset([s[0]] + xs) <= multiset(s)
  {
    assert s == [s[0]] + s[1..];
    assert multiset(s) == multiset{s[0]} + multiset(s[1..]);
    assert multiset([s[0]] + xs) == multiset{s[0]} + multiset(xs);
  }

  /** The pass only removes: the surviving bullets and aliens are drawn
      from the ones it was given. */
  lemma {:induction false} CollideRemovesOnly(bullets: seq<Bullet>, aliens: seq<Cell>, overlaps: (Bullet, Cell) -> bool)
    ensures multiset(GroupCollide(bullets, aliens, overlaps).aliens) <= multiset(aliens)
    ensures multiset(GroupCollide(bullets, aliens, overlaps).bullets) <= multiset(bullets)
    decreases |bullets|, 1
  {
    if bullets != [] {
      var left := Missed(bullets[0], aliens, overlaps);
      var rest := GroupCollide(bullets[1..], left, overlaps);
      CollideRemovesOnly(bullets[1..], left, overlaps);
      TailSubMultiset(rest.bullets, bullets);
    }
  }

  /** The hits add up to the number of aliens the pass destroyed. */
  lemma {:induction false} HitsCountDestroyed(bullets: seq<Bullet>, aliens: seq<Cell>, overlaps: (Bullet, Cell) -> bool)
    ensures Sum(GroupCollide(bullets, aliens, overlaps).hits) == |aliens| - |GroupCollide(bullets, aliens, overlaps).aliens|
    decreases |bullets|
  {
    if bullets != [] {
      var b := bullets[0];
      var left := Missed(b, aliens, overlaps);
      var rest := GroupCollide(bullets[1..], left, overlaps);
      HitsCountDestroyed(bullets[1..], left, overlaps);
      if |left| < |aliens| {
        var hits := [|aliens| - |left|] + rest.hits;
        assert hits[1..] == rest.hits;
        assert GroupCollide(bullets, aliens, overlaps) == Collisions(rest.bullets, rest.aliens, hits);
      } else {
        assert GroupCollide(bullets, aliens, overlaps) == Collisions([b] + rest.bullets, rest.aliens, rest.hits);
      }
    }
  }

  /** Every element of a sub-multiset occurs in the larger one. */
  lemma SubMultisetMembers<T>(a: seq<T>, b: seq<T>)
    requires multiset(a) <= multiset(b)
    ensures forall j :: 0 <= j < |a| ==> a[j] in b
  {
    forall j | 0 <= j < |a| ensures a[j] in b {
      assert a[j] in multiset(a);
    }
  }

  /** No bullet of `bs` overlaps an alien of `aliens`. */
  predicate Clear(bs: seq<Bullet>, aliens: seq<Cell>, overlaps: (Bullet, Cell) -> bool)
  {
    forall i, j :: 0 <= i < |bs| && 0 <= j < |aliens| ==> !overlaps(bs[i], aliens[j])
  }

  lemma ClearCons(b: Bullet, bs: seq<Bullet>, aliens: seq<Cell>, overlaps: (Bullet, Cell) -> bool)
    requires Clear(bs, aliens, overlaps)
    requires forall j :: 0 <= j < |aliens| ==> !overlaps(b, aliens[j])
    ensures Clear([b] + bs, aliens, overlaps)
  {
    forall i, j | 0 <= i < |[b] + bs| && 0 <= j < |aliens|
      ensures !overlaps(([b] + bs)[i], aliens[j])
    {
      if i > 0 {
        assert ([b] + bs)[i] == bs[i - 1];
      }
    }
  }

  /** After the pass, no surviving bullet overlaps a surviving alien. */
  lemma {:induction false} SurvivorsApart(bullets: seq<Bullet>, aliens: seq<Cell>, overlaps: (Bullet, Cell) -> bool)
    ensures Clear(GroupCollide(bullets, aliens, overlaps).bullets, GroupCollide(bullets, aliens, overlaps).aliens, overlaps)
    decreases |bullets|
  {
    if bullets != [] {
      var b := bullets[0];
      var left := Missed(b, aliens, overlaps);
      var rest := GroupCollide(bullets[1..], left, overlaps);
      SurvivorsApart(bullets[1..], left, overlaps);
      CollideRemovesOnly(bullets[1..], left, overlaps);
      if |left| == |aliens| {
        SubMultisetMembers(rest.aliens, left);
        ClearCons(b, rest.bullets, rest.aliens, overlaps);
      }
    }
  }

  /** The pass changes nothing exactly when no bullet hit anything. */
  lemma NoHitsNoChange(bullets: seq<Bullet>, aliens: seq<Cell>, overlaps: (Bullet, Cell) -> bool)
    ensures var r := GroupCollide(bullets, aliens, overlaps);
      (r.hits == [] <==> r.aliens == aliens) && (r.hits == [] ==> r.bullets == bullets)
  {
    var r := GroupCollide(bullets, aliens, overlaps);
    if r.hits == [] {
      NoHitsKeepsAll(bullets, aliens, overlaps);
    } else {
      HitsCountDestroyed(bullets, aliens, overlaps);
      assert r.hits[0] != 0 by {
        assert r.hits[0] in r.hits;
      }
      assert Sum(r.hits) == r.hits[0] + Sum(r.hits[1..]);
      assert |r.aliens| != |aliens|;
    }
  }

  /** Which aliens die: every copy of an alien that some bullet overlaps
      is removed, and every copy of one that no bullet overlaps survives. */
  lemma {:induction false} CollideKills(bullets: seq<Bullet>, aliens: seq<Cell>, overlaps: (Bullet, Cell) -> bool, a: Cell)
    ensures multiset(GroupCollide(bullets, aliens, overlaps).aliens)[a] ==
      if exists i :: 0 <= i < |bullets| && overlaps(bullets[i], a) then 0 else multiset(aliens)[a]
    decreases |bullets|
  {
    if bullets != [] {
      var b := bullets[0];
      var left := Missed(b, aliens, overlaps);
      var rest := GroupCollide(bullets[1..], left, overlaps);
      CollideKills(bullets[1..], left, overlaps, a);
      assert GroupCollide(bullets, aliens, overlaps).aliens == rest.aliens;
      var hitNow := exists i :: 0 <= i < |bullets| && overlaps(bullets[i], a);
      var hitLater := exists i :: 0 <= i < |bullets[1..]| && overlaps(bullets[1..][i], a);
      assert hitNow <==> overlaps(b, a) || hitLater by {
        if hitLater {
          var i :| 0 <= i < |bullets[1..]| && overlaps(bullets[1..][i], a);
          assert bullets[i + 1] == bullets[1..][i];
        }
        if hitNow {
          var i :| 0 <= i < |bullets| && overlaps(bullets[i], a);
          if i > 0 {
            assert bullets[1..][i - 1] == bullets[i];
          }
        }
      }
    }
  }

  /** Which bullets live: a bullet that overlaps none of the aliens it was
      fired at comes through the pass. */
  lemma {:induction false} CollideKeepsMisses(bullets: seq<Bullet>, aliens: seq<Cell>, overlaps: (Bullet, Cell) -> bool, i: nat)
    requires i < |bullets|
    ensures Clear([bullets[i]], aliens, overlaps) ==> bullets[i] in GroupCollide(bullets, aliens, overlaps).bullets
    decreases |bullets|
  {
    if Clear([bullets[i]], aliens, overlaps) {
      var b := bullets[0];
      var left := Missed(b, aliens, overlaps);
      var rest := GroupCollide(bullets[1..], left, overlaps);
      if i == 0 {
        MissedAll(b, aliens, overlaps);
        assert GroupCollide(bullets, aliens, overlaps).bullets == [b] + rest.bullets;
      } else {
        var c := bullets[i];
        assert bullets[1..][i - 1] == c;
        SubMultisetMembers(left, aliens);
        assert Clear([c], left, overlaps) by {
          forall k, j | 0 <= k < 1 && 0 <= j < |left| ensures !overlaps([c][k], left[j]) {
            var m :| 0 <= m < |aliens| && aliens[m] == left[j];
            assert !overlaps([c][0], aliens[m]);
          }
        }
        CollideKeepsMisses(bullets[1..], left, overlaps, i - 1);
        var r := GroupCollide(bullets, aliens, overlaps);
        assert r.bullets == rest.bullets || r.bullets == [b] + rest.bullets;
        assert c in rest.bullets;
      }
    }
  }

  /** The bullet at index `i` is used up by the pass: it overlaps an alien
      that no earlier bullet overlaps, so that alien is still alive when
      this bullet's turn comes. */
  predicate Consumed(bullets: seq<Bullet>, aliens: seq<Cell>, overlaps: (Bullet, Cell) -> bool, i: nat)
    requires i < |bullets|
  {
    exists a :: a in aliens && overlaps(bullets[i], a) && forall k :: 0 <= k < i ==> !overlaps(bullets[k], a)
  }

  /** The bullets from index `i` on that are not used up, in their order:
      an account of the surviving bullets in terms of the original fleet
      alone, without replaying the pass. */
  function Unspent(bullets: seq<Bullet>, aliens: seq<Cell>, overlaps: (Bullet, Cell) -> bool, i: nat): seq<Bullet>
    decreases |bullets| - i
  {
    if i >= |bullets| then []
    else (if Consumed(bullets, aliens, overlaps, i) then [] else [bullets[i]]) + Unspent(bullets, aliens, overlaps, i + 1)
  }

  /** The first bullet is used up exactly when its sweep removes an alien. */
  lemma ConsumedFirst(bullets: seq<Bullet>, aliens: seq<Cell>, overlaps: (Bullet, Cell) -> bool)
    requires bullets != []
    ensures Consumed(bullets, aliens, overlaps, 0) <==> |Missed(bullets[0], aliens, overlaps)| < |aliens|
  {
    var b := bullets[0];
    var left := Missed(b, aliens, overlaps);
    if Consumed(bullets, aliens, overlaps, 0) {
      var a :| a in aliens && overlaps(b, a);
      assert multiset(left)[a] == 0 < multiset(aliens)[a];
      assert left != aliens;
    } else {
      assert Clear([b], aliens, overlaps) by {
        forall i, j | 0 <= i < 1 && 0 <= j < |aliens| ensures !overlaps([b][i], aliens[j]) {
          assert aliens[j] in aliens;
        }
      }
      MissedAll(b, aliens, overlaps);
    }
  }

  /** Being used up, seen from the second bullet on against the fleet the
      first bullet left, is being used up in the whole pass. */
  lemma ConsumedShift(bullets: seq<Bullet>, aliens: seq<Cell>, overlaps: (Bullet, Cell) -> bool, m: nat, n: nat)
    requires n == m + 1 && n < |bullets|
    ensures Consumed(bullets[1..], Missed(bullets[0], aliens, overlaps), overlaps, m) <==>
            Consumed(bullets, aliens, overlaps, n)
  {
    var b := bullets[0];
    var left := Missed(b, aliens, overlaps);
    var tail := bullets[1..];
    assert tail[m] == bullets[n];
    if Consumed(tail, left, overlaps, m) {
      var a :| a in left && overlaps(tail[m], a) && forall k :: 0 <= k < m ==> !overlaps(tail[k], a);
      assert multiset(left)[a] > 0;
      assert a in aliens && !overlaps(b, a) by {
        assert multiset(aliens)[a] > 0;
      }
      forall k | 0 <= k < n ensures !overlaps(bullets[k], a) {
        if k > 0 {
          assert bullets[k] == tail[k - 1];
        }
      }
    }
    if Consumed(bullets, aliens, overlaps, n) {
      var a :| a in aliens && overlaps(bullets[n], a) && forall k :: 0 <= k < n ==> !overlaps(bullets[k], a);
      assert !overlaps(bullets[0], a);
      assert multiset(left)[a] == multiset(aliens)[a] > 0;
      assert a in left;
      forall k | 0 <= k < m ensures !overlaps(tail[k], a) {
        assert tail[k] == bullets[k + 1];
      }
    }
  }

  lemma {:induction false} UnspentShift(bullets: seq<Bullet>, aliens: seq<Cell>, overlaps: (Bullet, Cell) -> bool, m: nat, n: nat)
    requires bullets != [] && n == m + 1
    ensures Unspent(bullets[1..], Missed(bullets[0], aliens, overlaps), overlaps, m) == Unspent(bullets, aliens, overlaps, n)
    decreases |bullets| - m
  {
    var tail := bullets[1..];
    var left := Missed(bullets[0], aliens, overlaps);
    if n < |bullets| {
      assert Unspent(tail, left, overlaps, n) == Unspent(bullets, aliens, overlaps, n + 1) by {
        UnspentShift(bullets, aliens, overlaps, n, n + 1);
      }
      assert Consumed(tail, left, overlaps, m) <==> Consumed(bullets, aliens, overlaps, n) by {
        ConsumedShift(bullets, aliens, overlaps, m, n);
      }
      assert tail[m] == bullets[n];
      UnspentAt(tail, left, overlaps, m, n);
      UnspentAt(bullets, aliens, overlaps, n, n + 1);
      if Consumed(bullets, aliens, overlaps, n) {
        AppendEmpty(Unspent(tail, left, overlaps, n));
        AppendEmpty(Unspent(bullets, aliens, overlaps, n + 1));
      }
    } else {
      assert Unspent(tail, left, overlaps, m) == [];
    }
  }

  /** Which bullets live: exactly the ones not used up, in their order. A
      bullet is removed iff it overlaps an alien that no earlier bullet
      overlaps; of two bullets on the same lone alien, the first is spent
      and the second survives. */
  lemma {:induction false} CollideSpends(bullets: seq<Bullet>, aliens: seq<Cell>, overlaps: (Bullet, Cell) -> bool)
    ensures GroupCollide(bullets, aliens, overlaps).bullets == Unspent(bullets, aliens, overlaps, 0)
    decreases |bullets|
  {
    if bullets != [] {
      var left := Missed(bullets[0], aliens, overlaps);
      var tail := bullets[1..];
      TailSpends(bullets, aliens, overlaps);
      CollideHead(bullets, aliens, overlaps);
      UnspentAt(bullets, aliens, overlaps, 0, 1);
      if |left| < |aliens| {
        assert Consumed(bullets, aliens, overlaps, 0) by {
          ConsumedFirst(bullets, aliens, overlaps);
        }
        AppendEmpty(GroupCollide(tail, left, overlaps).bullets);
        AppendEmpty(Unspent(bullets, aliens, overlaps, 1));
      } else {
        assert !Consumed(bullets, aliens, overlaps, 0) by {
          ConsumedFirst(bullets, aliens, overlaps);
        }
      }
    }
  }

  /** The induction step of CollideSpends: the pass over the later bullets,
      against the fleet the first bullet left, spends what the whole pass
      spends from index 1 on. */
  lemma {:induction false} TailSpends(bullets: seq<Bullet>, aliens: seq<Cell>, overlaps: (Bullet, Cell) -> bool)
    requires bullets != []
    ensures GroupCollide(bullets[1..], Missed(bullets[0], aliens, overlaps), overlaps).bullets ==
            Unspent(bullets, aliens, overlaps, 1)
    decreases |bullets|, 0
  {
    CollideSpends(bullets[1..], Missed(bullets[0], aliens, overlaps), overlaps);
    UnspentShift(bullets, aliens, overlaps, 0, 1);
  }

  lemma AppendEmpty(s: seq<Bullet>)
    ensures [] + s == s
  {
  }

  /** One step of the account: the bullet at `i`, unless used up, then the rest. */
  lemma UnspentAt(bullets: seq<Bullet>, aliens: seq<Cell>, overlaps: (Bullet, Cell) -> bool, i: nat, j: nat)
    requires i < |bullets| && j == i + 1
    ensures Unspent(bullets, aliens, overlaps, i) ==
      (if Consumed(bullets, aliens, overlaps, i) then [] else [bullets[i]]) + Unspent(bullets, aliens, overlaps, j)
  {
  }

  lemma CollideHead(bullets: seq<Bullet>, aliens: seq<Cell>, overlaps: (Bullet, Cell) -> bool)
    requires bullets != []
    ensures var left := Missed(bullets[0], aliens, overlaps);
      GroupCollide(bullets, aliens, overlaps).bullets ==
        (if |left| < |aliens| then [] else [bullets[0]]) + GroupCollide(bullets[1..], left, overlaps).bullets
  {
    var left := Missed(bullets[0], aliens, overlaps);
    if |left| < |aliens| {
      assert [] + GroupCollide(bullets[1..], left, overlaps).bullets == GroupCollide(bullets[1..], left, overlaps).bullets;
    }
  }

  /** Two bullets on the same lone alien: the first is spent, the second
      survives. */
  lemma FirstBulletSpent(b1: Bullet, b2: Bullet, a: Cell, d: Cell, overlaps: (Bullet, Cell) -> bool)
    requires a != d
    requires overlaps(b1, a) && overlaps(b2, a) && !overlaps(b1, d) && !overlaps(b2, d)
    ensures GroupCollide([b1, b2], [a, d], overlaps) == Collisions([b2], [d], [1])
  {
    assert Missed(b1, [a, d], overlaps) == [d] by {
      assert [a, d][1..] == [d];
      assert [d][1..] == [];
    }
    assert Missed(b2, [d], overlaps) == [d] by {
      assert [d][1..] == [];
    }
    assert [b1, b2][1..] == [b2];
    assert [b2][1..] == [];
    assert GroupCollide([b2], [d], overlaps) == Collisions([b2], [d], []);
  }

  /** With no bullet overlapping any alien, the pass records no hit. */
  lemma {:induction false} NoOverlapNoHits(bullets: seq<Bullet>, aliens: seq<Cell>, overlaps: (Bullet, Cell) -> bool)
    requires Clear(bullets, aliens, overlaps)
    ensures GroupCollide(bullets, aliens, overlaps).hits == []
    decreases |bullets|
  {
    if bullets != [] {
      var b := bullets[0];
      assert Clear([b], aliens, overlaps) by {
        forall i, j | 0 <= i < 1 && 0 <= j < |aliens| ensures !overlaps([b][i], aliens[j]) {
          assert !overlaps(bullets[0], aliens[j]);
        }
      }
      MissedAll(b, aliens, overlaps);
      assert Clear(bullets[1..], aliens, overlaps) by {
        forall i, j | 0 <= i < |bullets[1..]| && 0 <= j < |aliens| ensures !overlaps(bullets[1..][i], aliens[j]) {
          assert bullets[1..][i] == bullets[i + 1];
        }
      }
      NoOverlapNoHits(bullets[1..], aliens, overlaps);
    }
  }

  /** A pass with no hits leaves both groups as they were. */
  lemma {:induction false} NoHitsKeepsAll(bullets: seq<Bullet>, aliens: seq<Cell>, overlaps: (Bullet, Cell) -> bool)
    ensures var r := GroupCollide(bullets, aliens, overlaps);
      r.hits == [] ==> r.aliens == aliens && r.bullets == bullets
    decreases |bullets|
  {
    if bullets != [] && |Missed(bullets[0], aliens, overlaps)| == |aliens| {
      NoHitsKeepsAll(bullets[1..], aliens, overlaps);
      MissStep(bullets, aliens, overlaps);
    }
  }

  /** When the first bullet misses every alien, it survives in front of
      what the rest of the pass leaves. */
  lemma MissStep(bullets: seq<Bullet>, aliens: seq<Cell>, overlaps: (Bullet, Cell) -> bool)
    requires bullets != [] && |Missed(bullets[0], aliens, overlaps)| == |aliens|
    ensures var rest := GroupCollide(bullets[1..], aliens, overlaps);
      GroupCollide(bullets, aliens, overlaps) == Collisions([bullets[0]] + rest.bullets, rest.aliens, rest.hits)
    ensures [bullets[0]] + bullets[1..] == bullets
  {
    assert Missed(bullets[0], aliens, overlaps) == aliens;
    assert bullets == [bullets[0]] + bullets[1..];
  }
}

=== FILE: fleet.dfy ===
/** The alien fleet: its grid layout, the edge bounce and the bottom check.
    The fleet is the sequence of its aliens' rectangle corners, in the
    order the aliens were added to the group. */
module Fleet {
  import opened Geometry

  /** One row of aliens at height `y`, starting at `x` and stepping right by
      two alien widths while the cursor stays left of `limit`. */
  function Row(x: int, y: int, aw: Extent, limit: int): seq<Cell>
    decreases limit - x
  {
    if x < limit then [Cell(x, y)] + Row(x + 2 * aw, y, aw, limit) else []
  }

  /** The rows from height `y` downwards, stepping by two alien heights while
      the cursor stays above three alien heights from the bottom. */
  function Rows(y: int, aw: Extent, ah: Extent, screenWidth: int, screenHeight: int): seq<Cell>
    decreases screenHeight - 3 * ah - y
  {
    if y < screenHeight - 3 * ah then
      Row(aw, y, aw, screenWidth - 2 * aw) + Rows(y + 2 * ah, aw, ah, screenWidth, screenHeight)
    else []
  }

  /** The fleet a new game, a lost life or a cleared level starts with. */
  function Build(aw: Extent, ah: Extent, screenWidth: int, screenHeight: int): (r: seq<Cell>)
    ensures forall c :: c in r <==> OnGrid(c, aw, ah, screenWidth, screenHeight)
  {
    var r := Rows(ah, aw, ah, screenWidth, screenHeight);
    assert forall c :: c in r <==> OnGrid(c, aw, ah, screenWidth, screenHeight) by {
      forall c ensures c in r <==> OnGrid(c, aw, ah, screenWidth, screenHeight) {
        RowsMembership(ah, aw, ah, screenWidth, screenHeight, c);
      }
    }
    r
  }

  /** The grid cells: one alien width/height from the top-left corner, a
      gap of one alien between neighbours, and room for three alien heights
      at the bottom and two alien widths at the right. */
  predicate OnGrid(c: Cell, aw: Extent, ah: Extent, screenWidth: int, screenHeight: int)
  {
    && aw <= c.x < screenWidth - 2 * aw && (c.x - aw) % (2 * aw) == 0
    && ah <= c.y < screenHeight - 3 * ah && (c.y - ah) % (2 * ah) == 0
  }

  /** `a` comes before `b` when reading the screen row by row. */
  predicate Before(a: Cell, b: Cell)
  {
    a.y < b.y || (a.y == b.y && a.x < b.x)
  }

  /** The fleet is laid out left to right, top to bottom (so no cell repeats). */
  predicate RowMajor(fleet: seq<Cell>)
  {
    forall i, j :: 0 <= i < j < |fleet| ==> Before(fleet[i], fleet[j])
  }

  /** Two aliens are at least one alien width or one alien height apart. */
  predicate Apart(a: Cell, b: Cell, aw: Extent, ah: Extent)
  {
    a.x + 2 * aw <= b.x || b.x + 2 * aw <= a.x || a.y + 2 * ah <= b.y || b.y + 2 * ah <= a.y
  }

  /** Every two distinct aliens of the fleet are apart, so none overlap. */
  predicate Spaced(fleet: seq<Cell>, aw: Extent, ah: Extent)
  {
    forall i, j :: 0 <= i < |fleet| && 0 <= j < |fleet| && i != j ==> Apart(fleet[i], fleet[j], aw, ah)
  }

  /** A positive multiple of a positive number is at least that number. */
  lemma MulAtLeast(m: int, k: int)
    requires m > 0
    ensures k >= 1 ==> m * k >= m
    ensures k <= -1 ==> m * k <= -m
  {
    if k >= 1 { assert m * k == m + m * (k - 1); assert m * (k - 1) >= 0; }
    if k <= -1 { assert m * k == -m + m * (k + 1); assert m * (k + 1) <= 0; }
  }

  /** Quotient and remainder are the only ones with a remainder in range. */
  lemma DivModUnique(d: int, m: int, q: int, r: int)
    requires m > 0 && 0 <= r < m && d == m * q + r
    ensures d / m == q && d % m == r
  {
    var q0, r0 := d / m, d % m;
    assert d == m * q0 + r0;
    assert m * (q - q0) == r0 - r;
    MulAtLeast(m, q - q0);
  }

  /** Stepping back one period does not change the remainder, zero is a
      multiple of the period, and a positive multiple of the period is at
      least the period. */
  lemma ModStep(d: int, m: int)
    requires m > 0
    ensures (d - m) % m == d % m
    ensures d == 0 ==> d % m == 0
    ensures d > 0 && d % m == 0 ==> d >= m
  {
    var q := d / m;
    assert d == m * q + d % m;
    assert d - m == m * (q - 1) + d % m;
    DivModUnique(d - m, m, q - 1, d % m);
    if d > 0 && d % m == 0 {
      MulAtLeast(m, q);
    }
  }

  /** Two values congruent modulo `m` and different are at least `m` apart. */
  lemma CongruentApart(p: int, q: int, o: int, m: int)
    requires m > 0 && p < q
    requires (p - o) % m == 0 && (q - o) % m == 0
    ensures q - p >= m
  {
    var k1 := (p - o) / m;
    var k2 := (q - o) / m;
    assert p - o == m * k1;
    assert q - o == m * k2;
    assert q - p == m * (k2 - k1);
    MulAtLeast(m, k2 - k1);
  }

  lemma {:induction false} RowMembership(x: int, y: int, aw: Extent, limit: int, c: Cell)
    ensures c in Row(x, y, aw, limit) <==> c.y == y && x <= c.x < limit && (c.x - x) % (2 * aw) == 0
    decreases limit - x
  {
    if x < limit {
      var step := 2 * aw;
      var d := c.x - x;
      assert c in Row(x, y, aw, limit) <==> c == Cell(x, y) || c in Row(x + step, y, aw, limit);
      RowMembership(x + step, y, aw, limit, c);
      ModStep(d, step);
      assert c.x - (x + step) == d - step;
      if c == Cell(x, y) {
        assert d == 0;
      } else if c.y == y && x <= c.x < limit && d % step == 0 {
        assert d >= step;
      }
    }
  }

  lemma {:induction false} RowsMembership(y: int, aw: Extent, ah: Extent, screenWidth: int, screenHeight: int, c: Cell)
    ensures c in Rows(y, aw, ah, screenWidth, screenHeight) <==>
      && y <= c.y < screenHeight - 3 * ah && (c.y - y) % (2 * ah) == 0
      && aw <= c.x < screenWidth - 2 * aw && (c.x - aw) % (2 * aw) == 0
    decreases screenHeight - 3 * ah - y
  {
    if y < screenHeight - 3 * ah {
      var step := 2 * ah;
      var d := c.y - y;
      var row := Row(aw, y, aw, screenWidth - 2 * aw);
      var rest := Rows(y + step, aw, ah, screenWidth, screenHeight);
      assert c in Rows(y, aw, ah, screenWidth, screenHeight) <==> c in row || c in rest;
      RowMembership(aw, y, aw, screenWidth - 2 * aw, c);
      RowsMembership(y + step, aw, ah, screenWidth, screenHeight, c);
      ModStep(d, step);
      assert c.y - (y + step) == d - step;
      if c.y == y {
        assert d == 0;
      } else if y <= c.y < screenHeight - 3 * ah && d % step == 0 {
        assert d >= step;
      }
    }
  }

  /** An alien is in the built fleet exactly when its corner is a grid cell. */
  lemma BuildMembership(aw: Extent, ah: Extent, screenWidth: int, screenHeight: int, c: Cell)
    ensures c in Build(aw, ah, screenWidth, screenHeight) <==> OnGrid(c, aw, ah, screenWidth, screenHeight)
  {
    RowsMembership(ah, aw, ah, screenWidth, screenHeight, c);
  }

  /** The fleet is non-empty exactly when the first cell fits. */
  lemma BuildNonEmpty(aw: Extent, ah: Extent, screenWidth: int, screenHeight: int)
    ensures Build(aw, ah, screenWidth, screenHeight) != [] <==>
      screenWidth > 3 * aw && screenHeight > 4 * ah
  {
    var fleet := Build(aw, ah, screenWidth, screenHeight);
    if fleet != [] {
      BuildMembership(aw, ah, screenWidth, screenHeight, fleet[0]);
    }
    BuildMembership(aw, ah, screenWidth, screenHeight, Cell(aw, ah));
  }

  /** Every cell of a row is at the row's height. */
  lemma {:induction false} RowHeight(x: int, y: int, aw: Extent, limit: int)
    ensures forall i :: 0 <= i < |Row(x, y, aw, limit)| ==> Row(x, y, aw, limit)[i].y == y
    decreases limit - x
  {
    if x < limit {
      RowHeight(x + 2 * aw, y, aw, limit);
    }
  }

  /** Every cell of the rows from height `y` down is at height `y` or lower. */
  lemma {:induction false} RowsBelow(y: int, aw: Extent, ah: Extent, screenWidth: int, screenHeight: int)
    ensures forall j :: 0 <= j < |Rows(y, aw, ah, screenWidth, screenHeight)| ==> Rows(y, aw, ah, screenWidth, screenHeight)[j].y >= y
    decreases screenHeight - 3 * ah - y
  {
    if y < screenHeight - 3 * ah {
      var row := Row(aw, y, aw, screenWidth - 2 * aw);
      var rest := Rows(y + 2 * ah, aw, ah, screenWidth, screenHeight);
      RowHeight(aw, y, aw, screenWidth - 2 * aw);
      RowsBelow(y + 2 * ah, aw, ah, screenWidth, screenHeight);
      var all: seq<Cell> := row + rest;
      forall j | 0 <= j < |all| ensures all[j].y >= y {
        if j >= |row| {
          assert all[j] == rest[j - |row|];
        }
      }
    }
  }

  /** Rows are emitted left to right, and whole rows top to bottom. */
  lemma {:induction false} RowsRowMajor(y: int, aw: Extent, ah: Extent, screenWidth: int, screenHeight: int)
    ensures RowMajor(Rows(y, aw, ah, screenWidth, screenHeight))
    decreases screenHeight - 3 * ah - y
  {
    if y < screenHeight - 3 * ah {
      var row := Row(aw, y, aw, screenWidth - 2 * aw);
      var rest := Rows(y + 2 * ah, aw, ah, screenWidth, screenHeight);
      assert Rows(y, aw, ah, screenWidth, screenHeight) == row + rest;
      assert RowMajor(row) by {
        RowRowMajor(aw, y, aw, screenWidth - 2 * aw);
      }
      assert RowMajor(rest) by {
        RowsRowMajor(y + 2 * ah, aw, ah, screenWidth, screenHeight);
      }
      assert forall i :: 0 <= i < |row| ==> row[i].y == y by {
        RowHeight(aw, y, aw, screenWidth - 2 * aw);
      }
      assert forall j :: 0 <= j < |rest| ==> rest[j].y > y by {
        RowsBelow(y + 2 * ah, aw, ah, screenWidth, screenHeight);
      }
      StackRowMajor(row, rest, y);
    }
  }

  lemma {:induction false} RowRowMajor(x: int, y: int, aw: Extent, limit: int)
    ensures RowMajor(Row(x, y, aw, limit))
    decreases limit - x
  {
    if x < limit {
      var rest := Row(x + 2 * aw, y, aw, limit);
      RowRowMajor(x + 2 * aw, y, aw, limit);
      forall j | 0 <= j < |rest| ensures Before(Cell(x, y), rest[j]) {
        RowMembership(x + 2 * aw, y, aw, limit, rest[j]);
      }
      ConcatRowMajor([Cell(x, y)], rest);
    }
  }

  /** A row at height `y` followed by cells strictly below it. */
  lemma StackRowMajor(row: seq<Cell>, rest: seq<Cell>, y: int)
    requires RowMajor(row) && RowMajor(rest)
    requires forall i :: 0 <= i < |row| ==> row[i].y == y
    requires forall j :: 0 <= j < |rest| ==> rest[j].y > y
    ensures RowMajor(row + rest)
  {
    ConcatRowMajor(row, rest);
  }

  lemma ConcatRowMajor(a: seq<Cell>, b: seq<Cell>)
    requires RowMajor(a) && RowMajor(b)
    requires forall i, j :: 0 <= i < |a| && 0 <= j < |b| ==> Before(a[i], b[j])
    ensures RowMajor(a + b)
  {
    forall i, j | 0 <= i < j < |a + b| ensures Before((a + b)[i], (a + b)[j]) {
      if j < |a| {
      } else if i >= |a| {
        assert (a + b)[i] == b[i - |a|] && (a + b)[j] == b[j - |a|];
      } else {
        assert (a + b)[j] == b[j - |a|];
      }
    }
  }

  /** The built fleet is laid out row by row, every alien on a grid cell,
      and no two aliens closer than one alien width or height. */
  lemma BuildLayout(aw: Extent, ah: Extent, screenWidth: int, screenHeight: int)
    ensures RowMajor(Build(aw, ah, screenWidth, screenHeight))
    ensures Spaced(Build(aw, ah, screenWidth, screenHeight), aw, ah)
    ensures forall c :: c in Build(aw, ah, screenWidth, screenHeight) ==>
      aw <= c.x < screenWidth - 2 * aw && ah <= c.y < screenHeight - 3 * ah
  {
    var fleet := Build(aw, ah, screenWidth, screenHeight);
    RowsRowMajor(ah, aw, ah, screenWidth, screenHeight);
    forall c | c in fleet ensures aw <= c.x < screenWidth - 2 * aw && ah <= c.y < screenHeight - 3 * ah {
      BuildMembership(aw, ah, screenWidth, screenHeight, c);
    }
    forall i, j | 0 <= i < |fleet| && 0 <= j < |fleet| && i != j
      ensures Apart(fleet[i], fleet[j], aw, ah)
    {
      BuildMembership(aw, ah, screenWidth, screenHeight, fleet[i]);
      BuildMembership(aw, ah, screenWidth, screenHeight, fleet[j]);
      assert fleet[i] != fleet[j] by {
        assert Before(fleet[i], fleet[j]) || Before(fleet[j], fleet[i]);
      }
      GridApart(fleet[i], fleet[j], aw, ah, screenWidth, screenHeight);
    }
  }

  /** Two different grid cells are apart. */
  lemma GridApart(a: Cell, b: Cell, aw: Extent, ah: Extent, screenWidth: int, screenHeight: int)
    requires OnGrid(a, aw, ah, screenWidth, screenHeight) && OnGrid(b, aw, ah, screenWidth, screenHeight)
    requires a != b
    ensures Apart(a, b, aw, ah)
  {
    if a.x < b.x {
      CongruentApart(a.x, b.x, aw, 2 * aw);
    } else if b.x < a.x {
      CongruentApart(b.x, a.x, aw, 2 * aw);
    } else if a.y < b.y {
      CongruentApart(a.y, b.y, ah, 2 * ah);
    } else {
      CongruentApart(b.y, a.y, ah, 2 * ah);
    }
  }

  /** The inner loop of the builder: appends the aliens of one row while
      the x cursor is left of the limit. */
  method PlaceRow(fleet: seq<Cell>, y: int, aw: Extent, limit: int) returns (r: seq<Cell>)
    ensures r == fleet + Row(aw, y, aw, limit)
  {
    r := fleet;
    var x := aw;
    while x < limit
      invariant r + Row(x, y, aw, limit) == fleet + Row(aw, y, aw, limit)
      decreases limit - x
    {
      ghost var next := Row(x + 2 * aw, y, aw, limit);
      assert Row(x, y, aw, limit) == [Cell(x, y)] + next;
      assert r + ([Cell(x, y)] + next) == (r + [Cell(x, y)]) + next;
      r := r + [Cell(x, y)];
      x := x + 2 * aw;
    }
    assert r + [] == r;
  }

  /** The builder as the nested loops place the aliens: the inner loop fills
      a row, the outer loop moves down a row while the y cursor is above
      three alien heights from the bottom. */
  method CreateFleet(aw: Extent, ah: Extent, screenWidth: int, screenHeight: int) returns (fleet: seq<Cell>)
    ensures fleet == Build(aw, ah, screenWidth, screenHeight)
    ensures forall c :: c in fleet <==> OnGrid(c, aw, ah, screenWidth, screenHeight)
  {
    fleet := [];
    var y := ah;
    ghost var built := Build(aw, ah, screenWidth, screenHeight);
    while y < screenHeight - 3 * ah
      invariant fleet + Rows(y, aw, ah, screenWidth, screenHeight) == built
      decreases screenHeight - 3 * ah - y
    {
      ghost var row := Row(aw, y, aw, screenWidth - 2 * aw);
      ghost var below := Rows(y + 2 * ah, aw, ah, screenWidth, screenHeight);
      assert Rows(y, aw, ah, screenWidth, screenHeight) == row + below;
      assert fleet + (row + below) == (fleet + row) + below;
      fleet := PlaceRow(fleet, y, aw, screenWidth - 2 * aw);
      y := y + 2 * ah;
    }
    assert fleet + [] == fleet;
    forall c ensures c in fleet <==> OnGrid(c, aw, ah, screenWidth, screenHeight) {
      BuildMembership(aw, ah, screenWidth, screenHeight, c);
    }
  }

  /** Every alien moved down by `drop`; x positions are kept. */
  function Drop(fleet: seq<Cell>, drop: int): (r: seq<Cell>)
    ensures |r| == |fleet|
    ensures forall i :: 0 <= i < |fleet| ==> r[i].x == fleet[i].x && r[i].y == fleet[i].y + drop
  {
    seq(|fleet|, i requires 0 <= i < |fleet| => Cell(fleet[i].x, fleet[i].y + drop))
  }

  /** A drop moves the whole fleet rigidly: its order and spacing survive,
      and two drops add up. */
  lemma DropKeepsLayout(fleet: seq<Cell>, drop: int, drop2: int, aw: Extent, ah: Extent)
    ensures RowMajor(fleet) ==> RowMajor(Drop(fleet, drop))
    ensures Spaced(fleet, aw, ah) ==> Spaced(Drop(fleet, drop), aw, ah)
    ensures Drop(Drop(fleet, drop), drop2) == Drop(fleet, drop + drop2)
  {
    var d := Drop(fleet, drop);
    if RowMajor(fleet) {
      forall i, j | 0 <= i < j < |d| ensures Before(d[i], d[j]) {
        assert Before(fleet[i], fleet[j]);
      }
    }
    if Spaced(fleet, aw, ah) {
      forall i, j | 0 <= i < |d| && 0 <= j < |d| && i != j ensures Apart(d[i], d[j], aw, ah) {
        assert Apart(fleet[i], fleet[j], aw, ah);
      }
    }
  }

  /** Some alien reports it has reached an edge. */
  predicate AnyAtEdge(fleet: seq<Cell>, atEdge: Cell -> bool)
  {
    exists i :: 0 <= i < |fleet| && atEdge(fleet[i])
  }

  /** The edge check: if any alien is at an edge the fleet drops once and
      reverses once, however many aliens are at an edge. */
  function CheckFleetEdges(fleet: seq<Cell>, drop: int, direction: int, atEdge: Cell -> bool): (r: (seq<Cell>, int))
    ensures |r.0| == |fleet|
    ensures AnyAtEdge(fleet, atEdge) ==> r.1 == -direction && r.0 == Drop(fleet, drop)
    ensures !AnyAtEdge(fleet, atEdge) ==> r == (fleet, direction)
  {
    if AnyAtEdge(fleet, atEdge) then (Drop(fleet, drop), -direction) else (fleet, direction)
  }

  /** The edge check as the loop runs it: scan the aliens in order and, at
      the first one at an edge, change direction and stop. `changes` counts
      the direction changes made. */
  method ScanFleetEdges(fleet: seq<Cell>, drop: int, direction: int, atEdge: Cell -> bool)
    returns (newFleet: seq<Cell>, newDirection: int, changes: nat)
    ensures changes <= 1
    ensures changes == 1 <==> AnyAtEdge(fleet, atEdge)
    ensures (newFleet, newDirection) == CheckFleetEdges(fleet, drop, direction, atEdge)
  {
    newFleet, newDirection, changes := fleet, direction, 0;
    var i := 0;
    while i < |fleet|
      invariant 0 <= i <= |fleet|
      invariant forall k :: 0 <= k < i ==> !atEdge(fleet[k])
    {
      if atEdge(fleet[i]) {
        newFleet, newDirection, changes := Drop(fleet, drop), -direction, 1;
        return;
      }
      i := i + 1;
    }
  }

  /** Some alien's bottom edge has reached the bottom of the screen. */
  predicate AnyAtBottom(fleet: seq<Cell>, ah: Extent, screenHeight: int)
  {
    exists i :: 0 <= i < |fleet| && fleet[i].y + ah >= screenHeight
  }

  /** A freshly built fleet is clear of the bottom of the screen. */
  lemma BuildNotAtBottom(aw: Extent, ah: Extent, screenWidth: int, screenHeight: int)
    ensures !AnyAtBottom(Build(aw, ah, screenWidth, screenHeight), ah, screenHeight)
  {
    BuildLayout(aw, ah, screenWidth, screenHeight);
    var fleet := Build(aw, ah, screenWidth, screenHeight);
    forall i | 0 <= i < |fleet| ensures fleet[i].y + ah < screenHeight {
      assert fleet[i] in fleet;
    }
  }
}

=== FILE: geometry.dfy ===
/** Integer screen geometry as pygame's `Rect` provides it. */
module Geometry {

  /** A strictly positive sprite extent (a zero-sized alien would make the
      fleet builder loop forever). */
  type Extent = n: int | 0 < n witness 1

  /** A pygame rectangle: top-left corner and size, in whole pixels. */
  datatype Rect = Rect(x: int, y: int, w: nat, h: nat) {
    function Left(): int { x }
    function Right(): int { x + w }
    function Bottom(): int { y + h }
    /** pygame's `centerx`, with C's division of a non-negative width. */
    function CenterX(): int { x + w / 2 }
  }

  /** The top-left corner of an alien's rectangle; every alien shares one size. */
  datatype Cell = Cell(x: int, y: int)

  /** Python's `int()` on a float, which is also what a pygame rectangle
      keeps when a float is stored into one of its coordinates:
      truncation toward zero. */
  function Trunc(r: real): (n: int)
    ensures r >= 0.0 ==> 0 <= n && n as real <= r < n as real + 1.0
    ensures r < 0.0 ==> n <= 0 && n as real - 1.0 < r <= n as real
  {
    if r >= 0.0 then r.Floor else -((-r).Floor)
  }

  /** Storing a whole number and reading it back gives it unchanged. */
  lemma TruncOfInt(n: int)
    ensures Trunc(n as real) == n
  {
  }
}

=== FILE: sequences.dfy ===
/** Small sequence helpers shared by the bullet and alien groups. */
module Sequences {

  /** The elements of `s` that satisfy `p`, in their original order.
      This is what removing sprites from a pygame group while iterating
      over a copy of it amounts to. */
  function Keep<T(!new)>(s: seq<T>, p: T -> bool): (r: seq<T>)
    ensures |r| <= |s|
    ensures forall i :: 0 <= i < |r| ==> p(r[i])
    ensures multiset(r) <= multiset(s)
    ensures (forall i :: 0 <= i < |s| ==> p(s[i])) ==> r == s
    ensures (exists i :: 0 <= i < |s| && !p(s[i])) ==> |r| < |s|
  {
    if s == [] then []
    else
      assert s == [s[0]] + s[1..];
      var rest := Keep(s[1..], p);
      assert forall i :: 1 <= i < |s| ==> s[i] == s[1..][i - 1];
      if p(s[0]) then [s[0]] + rest else rest
  }

  /** `Keep` keeps every copy of each element that satisfies `p` and no
      copy of any other. */
  lemma {:induction false} KeepCount<T(!new)>(s: seq<T>, p: T -> bool, x: T)
    ensures multiset(Keep(s, p))[x] == if p(x) then multiset(s)[x] else 0
  {
    if s != [] {
      var rest := Keep(s[1..], p);
      KeepCount(s[1..], p, x);
      assert s == [s[0]] + s[1..];
      assert multiset(s)[x] == multiset([s[0]])[x] + multiset(s[1..])[x];
      if p(s[0]) {
        assert Keep(s, p) == [s[0]] + rest;
        assert multiset(Keep(s, p))[x] == multiset([s[0]])[x] + multiset(rest)[x];
      }
    }
  }

  /** An element survives `Keep` exactly when it was present and satisfies `p`. */
  lemma KeepContents<T(!new)>(s: seq<T>, p: T -> bool, x: T)
    ensures x in Keep(s, p) <==> x in s && p(x)
  {
    KeepCount(s, p, x);
    assert x in Keep(s, p) <==> multiset(Keep(s, p))[x] > 0;
    assert x in s <==> multiset(s)[x] > 0;
  }

  /** One step of the filter: the head is kept in front or dropped. */
  lemma KeepHead<T(!new)>(s: seq<T>, p: T -> bool)
    requires s != []
    ensures Keep(s, p) == if p(s[0]) then [s[0]] + Keep(s[1..], p) else Keep(s[1..], p)
  {
  }

  /** A single element is kept iff it passes. */
  lemma KeepOne<T(!new)>(x: T, p: T -> bool)
    ensures Keep([x], p) == if p(x) then [x] else []
  {
    assert [x][1..] == [];
  }

  /** The filter treats every element on its own and leaves the survivors
      where they were: filtering two stretches joined end to end gives the
      two filtered stretches joined end to end. With `KeepOne` this pins
      the survivors' order. */
  lemma {:induction false} KeepConcat<T(!new)>(s: seq<T>, t: seq<T>, p: T -> bool)
    ensures Keep(s + t, p) == Keep(s, p) + Keep(t, p)
    decreases |s|
  {
    if s == [] {
      assert s + t == t;
    } else {
      KeepConcat(s[1..], t, p);
      ConcatTail(s, t);
      KeepHead(s, p);
      KeepHead(s + t, p);
      AppendAssoc([s[0]], Keep(s[1..], p), Keep(t, p));
    }
  }

  lemma ConcatTail<T>(xs: seq<T>, ys: seq<T>)
    requires xs != []
    ensures (xs + ys)[0] == xs[0] && (xs + ys)[1..] == xs[1..] + ys
  {
  }

  lemma AppendAssoc<T>(a: seq<T>, b: seq<T>, c: seq<T>)
    ensures a + (b + c) == (a + b) + c
  {
  }

  /** Applies `f` to every element, keeping the order. */
  function Map<T, U>(s: seq<T>, f: T -> U): (r: seq<U>)
    ensures |r| == |s|
    ensures forall i :: 0 <= i < |s| ==> r[i] == f(s[i])
  {
    seq(|s|, i requires 0 <= i < |s| => f(s[i]))
  }

  /** The sum of a sequence of counts. */
  function Sum(s: seq<nat>): nat
  {
    if s == [] then 0 else s[0] + Sum(s[1..])
  }
}

=== FILE: settings.dfy ===
/** The game's configuration record: fixed values chosen once, and the
    dynamic values a new game resets and each cleared level scales up. */
module GameSettings {
  import opened Geometry

  datatype Settings = Settings(
    // static: fixed for the session
    screenWidth: nat,
    screenHeight: nat,
    shipLimit: nat,
    bulletWidth: nat,
    bulletHeight: nat,
    bulletsAllowed: nat,
    fleetDropSpeed: int,
    speedupScale: real,
    scoreScale: real,
    // dynamic: reset on every new game
    shipSpeed: real,
    bulletSpeed: real,
    alienSpeed: real,
    fleetDirection: int,   // 1 is right, -1 is left
    alienPoints: int)

  /** The two records agree on every static field. */
  predicate SameStatic(a: Settings, b: Settings)
  {
    && a.screenWidth == b.screenWidth
    && a.screenHeight == b.screenHeight
    && a.shipLimit == b.shipLimit
    && a.bulletWidth == b.bulletWidth
    && a.bulletHeight == b.bulletHeight
    && a.bulletsAllowed == b.bulletsAllowed
    && a.fleetDropSpeed == b.fleetDropSpeed
    && a.speedupScale == b.speedupScale
    && a.scoreScale == b.scoreScale
  }

  /** What a running game relies on: positive speeds, a speed-up and a
      score scale that never shrink anything, a unit fleet direction and
      a non-negative point value. */
  predicate Valid(s: Settings)
  {
    && s.shipSpeed > 0.0
    && s.bulletSpeed > 0.0
    && s.alienSpeed > 0.0
    && s.speedupScale > 1.0
    && s.scoreScale >= 1.0
    && (s.fleetDirection == 1 || s.fleetDirection == -1)
    && s.alienPoints >= 0
  }

  /** Resets the values that change during a game. */
  function InitializeDynamicSettings(s: Settings): (r: Settings)
    ensures SameStatic(r, s)
    ensures r.shipSpeed == 1.5 && r.bulletSpeed == 2.5 && r.alienSpeed == 1.0
    ensures r.fleetDirection == 1 && r.alienPoints == 50
  {
    s.(shipSpeed := 1.5, bulletSpeed := 2.5, alienSpeed := 1.0,
       fleetDirection := 1, alienPoints := 50)
  }

  /** The settings a fresh game starts from. */
  function New(): (r: Settings)
    ensures r.screenWidth == 1200 && r.screenHeight == 800
    ensures r.shipLimit == 3 && r.bulletsAllowed == 3 && r.fleetDropSpeed == 10
    ensures r.bulletWidth == 3 && r.bulletHeight == 15
    ensures r.speedupScale == 1.1 && r.scoreScale == 1.5
    ensures InitializeDynamicSettings(r) == r
    ensures Valid(r)
  {
    InitializeDynamicSettings(Settings(
      screenWidth := 1200, screenHeight := 800,
      shipLimit := 3,
      bulletWidth := 3, bulletHeight := 15, bulletsAllowed := 3,
      fleetDropSpeed := 10,
      speedupScale := 1.1, scoreScale := 1.5,
      shipSpeed := 0.0, bulletSpeed := 0.0, alienSpeed := 0.0,
      fleetDirection := 0, alienPoints := 0))
  }

  /** Scales the three speeds by `speedupScale` and the point value by
      `scoreScale`, truncating the points back to a whole number. */
  function IncreaseSpeed(s: Settings): (r: Settings)
    ensures SameStatic(r, s)
    ensures r.fleetDirection == s.fleetDirection
    ensures s.alienPoints >= 0 && s.scoreScale == 1.5 ==> r.alienPoints == (3 * s.alienPoints) / 2
    ensures r.shipSpeed == s.shipSpeed * s.speedupScale
    ensures r.bulletSpeed == s.bulletSpeed * s.speedupScale
    ensures r.alienSpeed == s.alienSpeed * s.speedupScale
    ensures r.alienPoints == Trunc(s.alienPoints as real * s.scoreScale)
    ensures Valid(s) ==> Valid(r)
    ensures Valid(s) ==>
      && r.shipSpeed > s.shipSpeed
      && r.bulletSpeed > s.bulletSpeed
      && r.alienSpeed > s.alienSpeed
      && r.alienPoints >= s.alienPoints
  {
    s.(shipSpeed := Scale(s.shipSpeed, s.speedupScale),
       bulletSpeed := Scale(s.bulletSpeed, s.speedupScale),
       alienSpeed := Scale(s.alienSpeed, s.speedupScale),
       alienPoints := ScalePoints(s.alienPoints, s.scoreScale))
  }

  /** A speed multiplied by the speed-up factor: a positive speed scaled
      by more than one strictly grows. */
  function Scale(v: real, k: real): (r: real)
    ensures r == v * k
    ensures v > 0.0 && k > 1.0 ==> r > v
  {
    assert v * k - v == v * (k - 1.0);
    assert v > 0.0 && k > 1.0 ==> v * (k - 1.0) > 0.0;
    v * k
  }

  /** `int(points * scale)`: the truncated product of a point value and a
      scale never falls below the point value when the scale is at least
      one, and at scale 3/2 it is the floor of three halves of it. */
  function ScalePoints(p: int, scale: real): (n: int)
    ensures n == Trunc(p as real * scale)
    ensures p >= 0 && scale >= 1.0 ==> n >= p
    ensures p >= 0 && scale == 1.5 ==> n == (3 * p) / 2
  {
    assert p as real * scale - p as real == p as real * (scale - 1.0);
    assert p >= 0 && scale >= 1.0 ==> p as real * (scale - 1.0) >= 0.0;
    ThreeHalves(p);
    Trunc(p as real * scale)
  }

  /** Truncating three halves of a non-negative whole number is the same
      as dividing three times it by two. */
  lemma ThreeHalves(p: int)
    ensures p >= 0 ==> Trunc(p as real * 1.5) == (3 * p) / 2
  {
    if p >= 0 {
      var q := (3 * p) / 2;
      assert 3 * p == 2 * q || 3 * p == 2 * q + 1;
      assert q as real <= p as real * 1.5 < q as real + 1.0;
    }
  }

  /** `n` consecutive level clears. */
  function IncreaseSpeedN(s: Settings, n: nat): Settings
  {
    if n == 0 then s else IncreaseSpeed(IncreaseSpeedN(s, n - 1))
  }

  /** Resetting twice is the same as resetting once. */
  lemma InitializeIdempotent(s: Settings)
    ensures InitializeDynamicSettings(InitializeDynamicSettings(s)) == InitializeDynamicSettings(s)
  {
  }

  /** However many levels were cleared, a reset restores exactly what a
      reset of the original settings gives; from the defaults that is the
      defaults themselves. */
  lemma {:induction false} InitializeAfterIncreases(s: Settings, n: nat)
    ensures InitializeDynamicSettings(IncreaseSpeedN(s, n)) == InitializeDynamicSettings(s)
  {
    if n > 0 {
      InitializeAfterIncreases(s, n - 1);
      ResetForgetsDynamic(IncreaseSpeedN(s, n), IncreaseSpeedN(s, n - 1));
    }
  }

  /** From the defaults, a reset after any number of level clears gives
      back the defaults themselves. */
  lemma DefaultsRestored(n: nat)
    ensures InitializeDynamicSettings(IncreaseSpeedN(New(), n)) == New()
  {
    InitializeAfterIncreases(New(), n);
  }

  /** Settings with the default statics reset to exactly the defaults. */
  lemma ResetToDefaults(s: Settings)
    ensures SameStatic(s, New()) ==> InitializeDynamicSettings(s) == New()
  {
    if SameStatic(s, New()) {
      ResetForgetsDynamic(s, New());
    }
  }

  /** A reset depends on the static fields alone. */
  lemma ResetForgetsDynamic(a: Settings, b: Settings)
    requires SameStatic(a, b)
    ensures InitializeDynamicSettings(a) == InitializeDynamicSettings(b)
  {
  }

  /** Level scaling keeps the settings valid and the statics and fleet
      direction untouched, and strictly raises every speed. */
  lemma {:induction false} IncreasesPreserve(s: Settings, n: nat)
    requires Valid(s)
    ensures Valid(IncreaseSpeedN(s, n))
    ensures SameStatic(IncreaseSpeedN(s, n), s)
    ensures IncreaseSpeedN(s, n).fleetDirection == s.fleetDirection
    ensures IncreaseSpeedN(s, n).alienPoints >= s.alienPoints
    ensures n > 0 ==> IncreaseSpeedN(s, n).shipSpeed > s.shipSpeed
  {
    if n > 0 {
      IncreasesPreserve(s, n - 1);
    }
  }

  /** The point values of the first levels: 50, 75, 112. */
  lemma PointProgression()
    ensures New().alienPoints == 50
    ensures IncreaseSpeed(New()).alienPoints == 75
    ensures IncreaseSpeedN(New(), 2).alienPoints == 112
  {
    assert IncreaseSpeedN(New(), 1) == IncreaseSpeed(New());
  }
}

=== FILE: ship.dfy ===
/** The player's ship: a float horizontal position, the integer rectangle
    it is drawn and collided with, and the two movement flags. */
module ShipMotion {
  import opened Geometry

  datatype Ship = Ship(x: real, rect: Rect, movingRight: bool, movingLeft: bool)

  /** The screen's own rectangle, anchored at the origin. */
  function ScreenRect(screenWidth: nat, screenHeight: nat): Rect
  {
    Rect(0, 0, screenWidth, screenHeight)
  }

  /** A rectangle of the given size whose midbottom is set to the screen's
      midbottom (pygame places it by subtracting half the width and the
      whole height). */
  function AtMidbottom(w: nat, h: nat, screenWidth: nat, screenHeight: nat): (r: Rect)
    ensures r.w == w && r.h == h
    ensures r.CenterX() == ScreenRect(screenWidth, screenHeight).CenterX()
    ensures r.Bottom() == ScreenRect(screenWidth, screenHeight).Bottom()
  {
    Rect(screenWidth / 2 - w / 2, screenHeight - h, w, h)
  }

  /** A new ship of the image's size, at the bottom centre, not moving. */
  function NewShip(w: nat, h: nat, screenWidth: nat, screenHeight: nat): (r: Ship)
    ensures !r.movingRight && !r.movingLeft
    ensures r.rect.w == w && r.rect.h == h
    ensures r.rect.CenterX() == screenWidth / 2 && r.rect.Bottom() == screenHeight
    ensures r.x == r.rect.x as real && r.rect.x == Trunc(r.x)
  {
    var rect := AtMidbottom(w, h, screenWidth, screenHeight);
    TruncOfInt(rect.x);
    Ship(rect.x as real, rect, false, false)
  }

  /** Moves the ship back to the bottom centre; its size and movement
      flags are kept. */
  function CenterShip(s: Ship, screenWidth: nat, screenHeight: nat): (r: Ship)
    ensures r.movingRight == s.movingRight && r.movingLeft == s.movingLeft
    ensures r.rect.w == s.rect.w && r.rect.h == s.rect.h
    ensures r.rect.CenterX() == screenWidth / 2 && r.rect.Bottom() == screenHeight
    ensures r.x == r.rect.x as real && r.rect.x == Trunc(r.x)
  {
    var rect := AtMidbottom(s.rect.w, s.rect.h, screenWidth, screenHeight);
    TruncOfInt(rect.x);
    s.(x := rect.x as real, rect := rect)
  }

  /** Where the ship was before does not matter to `CenterShip`, and a
      centred ship is a new ship apart from its flags. */
  lemma CenterForgetsPosition(s1: Ship, s2: Ship, screenWidth: nat, screenHeight: nat)
    requires s1.rect.w == s2.rect.w && s1.rect.h == s2.rect.h
    requires s1.movingRight == s2.movingRight && s1.movingLeft == s2.movingLeft
    ensures CenterShip(s1, screenWidth, screenHeight) == CenterShip(s2, screenWidth, screenHeight)
    ensures CenterShip(s1, screenWidth, screenHeight).(movingRight := false, movingLeft := false)
         == NewShip(s1.rect.w, s1.rect.h, screenWidth, screenHeight)
  {
  }

  /** One tick of ship motion. The right and left moves are each gated by
      the rectangle as it was before the tick, so neither suppresses the
      other; the rectangle then takes the truncated float position. */
  function Update(s: Ship, screenWidth: nat, speed: real): (r: Ship)
    ensures r.movingRight == s.movingRight && r.movingLeft == s.movingLeft
    ensures r.rect == s.rect.(x := Trunc(r.x))
    ensures r.x == s.x + (if s.movingRight && s.rect.Right() < screenWidth then speed else 0.0)
                       - (if s.movingLeft && s.rect.Left() > 0 then speed else 0.0)
    ensures s.movingRight && s.movingLeft && s.rect.Right() >= screenWidth && s.rect.Left() > 0 ==> r.x == s.x - speed
    ensures s.movingRight && s.movingLeft && s.rect.Right() < screenWidth && s.rect.Left() <= 0 ==> r.x == s.x + speed
    ensures s.movingRight && !s.movingLeft && s.rect.Right() < screenWidth ==> r.x == s.x + speed
    ensures s.movingLeft && !s.movingRight && s.rect.Left() > 0 ==> r.x == s.x - speed
    ensures s.movingRight && s.movingLeft && s.rect.Right() < screenWidth && s.rect.Left() > 0 ==> r.x == s.x
    ensures (!s.movingRight || s.rect.Right() >= screenWidth) && (!s.movingLeft || s.rect.Left() <= 0) ==> r.x == s.x
    ensures !s.movingRight && !s.movingLeft ==> r.x == s.x && r.rect.x == Trunc(s.x)
  {
    var x1 := if s.movingRight && s.rect.Right() < screenWidth then s.x + speed else s.x;
    var x2 := if s.movingLeft && s.rect.Left() > 0 then x1 - speed else x1;
    s.(x := x2, rect := s.rect.(x := Trunc(x2)))
  }

  /** The same tick with the left move evaluated first. */
  function UpdateLeftFirst(s: Ship, screenWidth: nat, speed: real): Ship
  {
    var x1 := if s.movingLeft && s.rect.Left() > 0 then s.x - speed else s.x;
    var x2 := if s.movingRight && s.rect.Right() < screenWidth then x1 + speed else x1;
    s.(x := x2, rect := s.rect.(x := Trunc(x2)))
  }

  /** The order of the two moves does not matter: the flags act independently. */
  lemma UpdateOrderIndependent(s: Ship, screenWidth: nat, speed: real)
    ensures Update(s, screenWidth, speed) == UpdateLeftFirst(s, screenWidth, speed)
  {
  }

  /** The ship is at most one step beyond either side of the screen. */
  predicate NearScreen(s: Ship, screenWidth: nat, speed: real)
  {
    -speed < s.x < (screenWidth - s.rect.w) as real + speed
  }

  /** Because a move is only made from inside the screen, the ship never
      drifts more than one step past an edge. */
  lemma UpdateStaysNearScreen(s: Ship, screenWidth: nat, speed: real)
    requires speed > 0.0
    requires s.rect.x == Trunc(s.x)
    requires NearScreen(s, screenWidth, speed)
    ensures NearScreen(Update(s, screenWidth, speed), screenWidth, speed)
  {
    var r := Update(s, screenWidth, speed);
    if s.movingRight && s.rect.Right() < screenWidth {
      assert s.x < (screenWidth - s.rect.w) as real;
    }
    if s.movingLeft && s.rect.Left() > 0 {
      assert s.x >= 1.0;
    }
  }

  /** A centred ship that fits on the screen is near the screen at any
      positive speed, and a faster speed only widens the margin. */
  lemma CenteredIsNearScreen(s: Ship, screenWidth: nat, screenHeight: nat, speed: real, faster: real)
    requires speed > 0.0 && faster >= speed
    requires s.rect.w <= screenWidth
    ensures NearScreen(CenterShip(s, screenWidth, screenHeight), screenWidth, speed)
    ensures NearScreen(s, screenWidth, speed) ==> NearScreen(s, screenWidth, faster)
  {
  }
}
